=== FILE: README.md ===
# Part placement by simulated annealing and a genetic algorithm

This project models the placement core of a part-placement optimiser. Ordered
items, each with a footprint, a quantity and an order time, are placed on square
500 x 500 plates. Two scripts optimise the placement. They share two pieces
word for word (`src/sa.py:27-74` and `src/ga.py:24-70`):

- the time-window test `is_same_time_range`, which asks whether two orders are both
  before noon or both at or after noon;
- the greedy shelf packer `generate_initial_solution`, which gives both optimisers
  their starting solution.

`src/sa.py` adds:

- the overlap test `can_fit_in_plate`;
- the neighbour move `neighbor_solution`;
- the objective `calculate_cost`;
- the annealing loop `simulated_annealing`.

`src/ga.py` adds:

- the same objective, as `fitness_function`;
- plate-level `crossover` and part-swapping `mutate`;
- the morning/afternoon split `split_data_by_time_range`;
- the generation loop `genetic_algorithm_for_subset` and the driver `genetic_algorithm`.

The shared predicate and packer are modelled once. The rows below cite
`src/sa.py`; `src/ga.py:24-70` is the same code.

The model is functional:

- A solution is a sequence of plates, and a plate is a sequence of placed parts
  `Part(name, time, x, y)`.
- A time is a `Stamp`: an opaque date tag plus seconds since midnight. Noon is
  43200.
- The footprint lookup is a parameter `dims: string -> Dim`.
- Every random choice is a parameter. In the loops it is a raw natural number,
  reduced to the source's range by `Layout.Reduce`, with `Layout.SkipOver` for the
  second of two distinct indices. For each move, a lemma shows that every choice
  the source can make is reached.
- The Metropolis coin and the mutation coin are booleans.

Modules:

- `TimeRange`: the time windows.
- `Layout`: solutions and list operations.
- `Geometry`: the constants and the separation test.
- `Scoring`: the objective and the utilisation.
- `Baseline`: the packer.
- `Annealing`: the neighbour move and the annealing loop.
- `Ranking`: sorting and the minimum by key.
- `Genetic`: the genetic operators and loops.

The packer takes a `Packing` rule:

- `AsWritten` is the scripts' code.
- `Corrected` repairs the two defects listed under Findings.
  - A row wrap advances by the tallest part of the finished row.
  - A vertical overflow closes the current plate only if the plate holds parts.

Central results:

- `Annealing.SimulatedAnnealing` never returns a cost above the packer's. It keeps
  exactly the packer's parts. With the corrected packer it never raises, and its
  result is overlap-free.
- `Genetic.GeneticSubset` returns a solution whose fitness is *exactly* the
  packer's.
  - Crossover of parents with the same plate sizes keeps those sizes (plates and
    parts per plate). Mutation swaps parts one for one.
  - The fitness depends only on those sizes.
  - All fifty initial members are the same deterministic packer output.

  So the genetic search never changes the objective.

Two further facts about the code:

- `crossover` keeps `len(p1)` plates only when `p2` has as many plates as `p1`
  (`src/ga.py:78-85`). See `Genetic.Crossover` and `Genetic.CrossoverLengthDiffers`.
- The annealing loop's random test decides only moves that raise the objective.
  A move to an equal objective passes it always, because a uniform draw from
  [0, 1) is below exp(0) = 1. A successful neighbour move never raises the
  objective (`Annealing.NeighborCost`), so every successful iteration takes its
  move (`Annealing.StepTakesEveryMove`).

## Model

| member | source | states |
|---|---|---|
| TimeRange.IsSameTimeRange | src/sa.py:27-37 | true exactly when both times are before noon or both are at or after noon, i.e. when the two windows are equal |
| TimeRange.SameTimeRangeIsEquivalence | src/sa.py:27-37 | the same-window test is reflexive, symmetric and transitive |
| TimeRange.BucketBoundary | src/sa.py:33-37 | the two windows are exhaustive and disjoint; 12:00:00 itself is in the afternoon |
| TimeRange.MorningAndAfternoonDiffer | src/sa.py:33-37 | 08:00 and 14:00 of one day are not in the same window |
| Layout.PartCountIsFlattenLength | src/sa.py:131 | summing the plate lengths counts the parts of the flattened solution |
| Layout.DropEmpty | src/sa.py:100-101 | dropping empty plates keeps every part in order, leaves no empty plate, never adds a plate, keeps only input plates, and changes nothing when no plate was empty |
| Layout.DropEmptySingle | src/sa.py:100-101 | on a single plate the filter keeps it exactly when it holds parts |
| Layout.DropEmptyAppend | src/sa.py:100-101 | the filter distributes over concatenation; with the single-plate case it yields exactly the non-empty plates in their order |
| Layout.DropEmptyCount | src/sa.py:100-101 | the filter removes exactly as many plates as the input has empty ones |
| Layout.Swap | src/sa.py:87-90 | the two positions exchange their elements, all others are unchanged, and the contents are a permutation |
| Layout.RemoveFirst | src/sa.py:98 | `list.remove` drops the first occurrence of the element: everything before it is kept in place, everything after it shifts down by one, and the multiset loses exactly that element |
| Layout.Reduce | src/sa.py:82 | a raw draw lands in [0, n), and a draw already in range is taken as is, so every position can be drawn |
| Layout.SkipOver | src/sa.py:86 | the second of two sampled indices never equals the first; below it the draw is kept, otherwise it moves up by one |
| Geometry.CanFitInPlate | src/sa.py:107-126 | the scan returns true iff the candidate, inflated by BUFFER, lies left of, right of, above or below every part on the plate |
| Geometry.SeparatedSymmetric | src/sa.py:118-123 | the separation test gives the same answer with the two parts exchanged |
| Geometry.FitsOnEmptyAndSnoc | src/sa.py:113-126 | any part fits an empty plate; a part fits `plate + [q]` iff it fits `plate` and is separated from q |
| Geometry.PairwiseSnoc | src/sa.py:96-97 | appending a part that fits keeps a plate free of overlaps |
| Geometry.PairwiseSwap | src/sa.py:87-90 | exchanging two parts of an overlap-free plate keeps it overlap-free |
| Geometry.PairwiseRemoveAt | src/sa.py:98 | removing a part from an overlap-free plate keeps it overlap-free |
| Scoring.Cost | src/sa.py:129-133 | the objective is never above the area of the plates in use, and no plates cost nothing |
| Scoring.CostCountsParts | src/ga.py:72-76 | each placed part lowers the objective by exactly one, whatever its size: the objective is the plates' area minus the length of the flattened part list |
| Scoring.CostAdditive | src/ga.py:72-76 | the objective is 0 on no plates and adds up over concatenation of solutions |
| Scoring.CostOfFewerPlates | src/sa.py:129-133 | with the same parts, a solution with no more plates never costs more |
| Scoring.CostOfSameShape | src/ga.py:72-76 | two solutions with the same plate count and per-plate part counts have the same part count and objective |
| Scoring.UsedAreaIsFlatArea | src/sa.py:157-162 | the plate-by-plate, part-by-part area sum equals the area of the flattened part list |
| Scoring.Utilization | src/sa.py:155-165 | zero plates is the division error; otherwise the ratio's denominator is plates times PLATE_SIZE squared (positive), its numerator the parts' area, non-negative for non-negative footprints |
| Baseline.Footprint | src/sa.py:51 | the footprint is the first two dimensions sorted ascending: smaller first, same multiset |
| Baseline.Copies | src/sa.py:50 | `range(quantity)` yields max(quantity, 0) copies of the unit |
| Baseline.UnitsCount | src/sa.py:46-50 | the packer visits as many units as the sum of the non-negative quantities |
| Baseline.UnitsFromRows | src/sa.py:46-51 | every visited unit is the footprint and identity of one input row |
| Baseline.Wrap | src/sa.py:53-55 | a wrap closes no plate and places nothing; when the unit fits horizontally nothing changes, otherwise the cursor goes back to x = BUFFER with an empty shelf and moves down by the row advance plus SEPARATION, never up |
| Baseline.Overflow | src/sa.py:57-61 | when the unit fits vertically nothing changes; otherwise the current plate is closed (appended even when empty under the source's rule) and the cursor restarts at (BUFFER, BUFFER) on an empty plate |
| Baseline.OverflowKeepsContents | src/sa.py:57-61 | closing a plate on vertical overflow loses no placed part and keeps their order |
| Baseline.TimeBreak | src/sa.py:63-67 | after the step the unit's window matches the current plate's (or the plate is empty); with no break nothing changes |
| Baseline.TimeBreakKeepsContents | src/sa.py:63-67 | closing a plate at a window change loses no placed part and keeps their order |
| Baseline.Put | src/sa.py:69-70 | the part is appended to the current plate at the cursor, closed plates and the row stay, x advances by width + SEPARATION, and the shelf is the tallest part of the row |
| Baseline.PlaceUnit | src/sa.py:51-70 | one loop pass ends the current plate with the unit's part and leaves the cursor just past it on its row |
| Baseline.PlaceUnitAppends | src/sa.py:51-70 | placing a unit adds exactly that part after all parts placed so far; closing plates loses none |
| Baseline.Initial | src/sa.py:40-74 | the packer outputs one part per unit of quantity; a non-positive quantity gives none |
| Baseline.InitialMatchesUnits | src/sa.py:46-73 | reading the plates in order gives one part per unit of quantity, with its row's name and order time, in input order |
| Baseline.InitialHomogeneous | src/sa.py:63-69 | every plate's parts are all in the window of the plate's first part |
| Baseline.InitialSeparatesWindows | src/sa.py:63-67 | any two parts on one plate are in the same time window |
| Baseline.InitialWithinPlate | src/sa.py:44-61 | with non-negative dimensions every part has x, y >= BUFFER; with footprints at most PLATE_SIZE - 2*BUFFER every part ends BUFFER before the far edges |
| Baseline.InitialNoEmptyPlates | src/sa.py:57-73 | the corrected packer never yields an empty plate; the source's packer does not either when every footprint fits inside the margins |
| Baseline.CorrectedInitialFeasible | src/sa.py:53-55 | with the corrected wrap, every plate keeps to one window and no two of its parts overlap, BUFFER included |
| Baseline.SingleWindowNeverBreaks | src/ga.py:53-63 | on units of one window the time-window break never fires, so plates close only on vertical overflow |
| Baseline.PlacementSteps | src/sa.py:53-70 | a unit goes next along the row (x advances by width + SEPARATION), at x = BUFFER of a lower row, or at (BUFFER, BUFFER) of a new plate |
| Baseline.TwoUnitsOnOneRow | src/sa.py:69-70 | two 100x100 units land at (5,5) and (115,5) on one plate |
| Baseline.WrapToNextRow | src/sa.py:53-55 | a third 200x200 unit wraps to (5, 215) on the same plate |
| Baseline.WindowsSplitPlates | src/sa.py:63-67 | orders at 08:00 and 14:00 go to two plates although both would fit on one |
| Baseline.AsWrittenOverlaps | src/sa.py:53-55 | the source's wrap puts a 200x200 part at (5,215) inside a 300x400 part at (5,5); the corrected rule opens a new plate |
| Baseline.AsWrittenEmptyPlate | src/sa.py:57-61 | the source's packer outputs an empty first plate for one 100x495 unit; the corrected one does not |
| Baseline.PlaceOneUnit | src/sa.py:51-70 | the loop body with its four branches computes exactly one packer step |
| Baseline.PlaceRow | src/sa.py:50-70 | the inner loop places the row's quantity of units, one packer step each |
| Baseline.GenerateInitialSolution | src/sa.py:40-74 | the nested loops with the final flush compute the packer's solution |
| Annealing.Shuffle | src/sa.py:83-90 | only the chosen plate changes, to a permutation of itself of the same length; the solution's parts are unchanged |
| Annealing.MovePart | src/sa.py:96-98 | the part is appended to plate p and its first occurrence leaves plate p+1; other plates and the solution's parts are unchanged |
| Annealing.Neighbor | src/sa.py:77-103 | unchanged on at most one plate; raises IndexError iff plate p is empty while p+1 exists and is non-empty; otherwise keeps every part, never adds a plate, leaves no empty plate |
| Annealing.NeighborCost | src/sa.py:77-103 | a successful move never raises the objective |
| Annealing.FeasibleSubset | src/sa.py:100-101 | keeping only plates of a feasible solution keeps it feasible |
| Annealing.ShuffleFeasible | src/sa.py:83-90 | the swap step keeps windows and separation |
| Annealing.MoveFeasible | src/sa.py:93-98 | moving a same-window part that fits keeps windows and separation on both plates |
| Annealing.NeighborFeasible | src/sa.py:92-101 | a move keeps every plate within one window and free of overlaps |
| Annealing.NeighborWithoutEmptyPlates | src/sa.py:93-95 | on a solution without empty plates a move never raises and leaves no empty plate |
| Annealing.Resolve | src/sa.py:82-94 | the raw numbers are reduced to a draw in the ranges the source draws from |
| Annealing.NeighborSameChoices | src/sa.py:82-94 | the move depends only on the choices it consults |
| Annealing.ResolveReachesEveryDraw | src/sa.py:82-94 | every valid draw is reached from some raw numbers and gives the same move |
| Annealing.Accept | src/sa.py:145-148 | a move to an objective no higher than the current one is always taken, a higher one exactly when the coin says so; best changes only to a strictly lower objective and then equals current; cached costs stay right and best <= current |
| Annealing.StepTakesEveryMove | src/sa.py:143-148 | every successful iteration makes the neighbour the current solution, since a move never raises the objective |
| Annealing.Step | src/sa.py:142-149 | an iteration raises iff its move does; best cost never rises; best is kept or strictly improved to the current |
| Annealing.StepPreserves | src/sa.py:143-148 | an iteration keeps the parts of current and best, keeps them feasible, and never raises without empty plates |
| Annealing.Anneal | src/sa.py:142-149 | over any trials the best cost never rises and tracking, parts, feasibility and absence of empty plates are kept |
| Annealing.SimulatedAnnealing | src/sa.py:135-151 | the returned cost is the returned solution's, at most the packer's, with the packer's parts; the corrected packer makes the run total and feasible |
| Annealing.OversizeUtilization | src/sa.py:155-165 | a 600x600 item is still placed at (5, 5) by the corrected packer; the one-plate solution is feasible, and its utilization is 360000 over 250000, i.e. 144 percent |
| Annealing.AsWrittenOversizeUtilization | src/sa.py:155-165 | under the source's rule three 600x600 units give an empty plate and three single-part plates, whose utilization is 1080000 over 1000000, i.e. 108 percent |
| Annealing.AsWrittenAnnealingRaises | src/sa.py:95 | the empty plate of the source's packer makes the first move raise IndexError; with the corrected packer the run succeeds |
| Ranking.InsertBy | src/ga.py:121 | inserting into a key-sorted list keeps it sorted and adds exactly the element |
| Ranking.SortBy | src/ga.py:121 | the result is sorted by key and a permutation of the input |
| Ranking.SortKeepsEqualKeys | src/ga.py:121 | the sort leaves a list of equal keys in its order |
| Ranking.FirstMin | src/ga.py:132 | `min(..., key=...)` picks the first position of least key |
| Ranking.SortedHeadIsMin | src/ga.py:121-132 | the head of the sorted list has the least key of the input |
| Genetic.Crossover | src/ga.py:78-85 | the child is p1 up to the split then p2 from the split, with its length in each case; its length equals |p1| iff |p2| does (|p1| > 1); every plate comes from a parent |
| Genetic.CrossoverKeepsShape | src/ga.py:84 | parents with the same plate sizes give a child with those plate sizes |
| Genetic.CrossoverOfTwins | src/ga.py:84 | a parent crossed with itself is returned unchanged |
| Genetic.CrossoverKeepsBucket | src/ga.py:84 | parents within one window give a child within it |
| Genetic.CrossoverLengthDiffers | src/ga.py:84 | a two-plate parent crossed with a three-plate one gives a three-plate child |
| Genetic.ExchangeParts | src/ga.py:93-95 | with both plates non-empty the two positions exchange parts and nothing else changes; otherwise the solution is unchanged; plate sizes are kept |
| Genetic.ExchangeKeepsParts | src/ga.py:95 | a swap keeps the multiset of parts |
| Genetic.ExchangeKeepsBucket | src/ga.py:95 | a swap within one window stays in it |
| Genetic.ResolveExchange | src/ga.py:92-94 | the raw numbers give two distinct plates and in-range positions |
| Genetic.ResolveReachesEveryExchange | src/ga.py:92-94 | every valid exchange is reached from some raw numbers |
| Genetic.MutateOnce | src/ga.py:90-95 | one pass keeps plate sizes and parts, and changes nothing without the coin or with one plate |
| Genetic.MutateAll | src/ga.py:89-95 | all passes keep plate sizes and parts |
| Genetic.Mutate | src/ga.py:87-95 | mutation keeps plate sizes, parts and fitness, and changes nothing when no coin falls under the rate |
| Genetic.MutateAllWithoutCoin | src/ga.py:89-90 | with no coin under the rate, no pass changes the solution |
| Genetic.MutateAllKeepsBucket | src/ga.py:87-95 | mutation within one window stays in it |
| Genetic.MutationIgnoresOverlap | src/ga.py:93-95 | a swap can turn an overlap-free solution into one with overlapping parts |
| Genetic.Breed | src/ga.py:125-128 | parents with the same plate sizes give a child with those plate sizes |
| Genetic.Children | src/ga.py:124-128 | one child per draw, in draw order, each bred from the same parent pool |
| Genetic.BreedWithoutMutation | src/ga.py:125-127 | with no mutation coin, the child is the crossover of the two drawn parents |
| Genetic.BreedFromPool | src/ga.py:125-126 | with no mutation coin, every plate of the child is a plate of one of its two parents |
| Genetic.BreedKeepsShape | src/ga.py:125-127 | parents of one plate-size shape give a child of that shape and fitness |
| Genetic.BreedKeepsBucket | src/ga.py:125-127 | parents within one window give a child within it |
| Genetic.FillUp | src/ga.py:124-128 | the refill loop stops at exactly the target size, keeps the front, and appends one element per draw in draw order |
| Genetic.Refill | src/ga.py:124-128 | refilling gives POPULATION_SIZE members: the survivors, then one child of the best quarter per draw, in draw order; the result is exactly the survivors followed by `Children` of the best quarter |
| Genetic.Generation | src/ga.py:120-130 | one generation run as the source's loop (rank, keep half, refill) computes exactly `NextGeneration`, so the results about `NextGeneration`, `Evolve` and `GeneticSubset` hold for the loop |
| Genetic.Survivors | src/ga.py:121-122 | the survivors are POPULATION_SIZE // 2 population members sorted by fitness, headed by the population's least fitness |
| Genetic.SurvivorsAreBetterHalf | src/ga.py:121-122 | the survivors and some discarded rest make up the population, and no survivor has higher fitness than a discarded member |
| Genetic.NextGeneration | src/ga.py:120-130 | the next generation has POPULATION_SIZE members, keeps the population's least fitness at its head, and its least fitness is no higher |
| Genetic.NextGenerationKeepsSurvivors | src/ga.py:122 | the first POPULATION_SIZE // 2 members of the next generation are the survivors |
| Genetic.ChildFromBestQuarter | src/ga.py:125 | with no mutation coin, every plate of a child is a plate of one of the POPULATION_SIZE // 4 fittest survivors |
| Genetic.NextGenerationKeepsShape | src/ga.py:120-130 | if every member has one plate-size shape, every next member has it |
| Genetic.NextGenerationKeepsBucket | src/ga.py:120-130 | if every member is within one window, every next member is |
| Genetic.Evolve | src/ga.py:120-130 | the population size stays POPULATION_SIZE and the least fitness never rises over the generations |
| Genetic.EvolveKeepsShape | src/ga.py:120-130 | the plate-size shape of all members survives every generation |
| Genetic.EvolveKeepsBucket | src/ga.py:120-130 | the window of all members survives every generation |
| Genetic.Population | src/ga.py:118 | the initial population is POPULATION_SIZE copies of the packer's solution |
| Genetic.GeneticSubset | src/ga.py:116-133 | the returned solution has the packer's plate count and per-plate part counts, hence exactly the packer's fitness |
| Genetic.GeneticSubsetAllIn | src/ga.py:116-133 | on rows of one window the result holds only that window's parts |
| Genetic.RowsIn | src/ga.py:99-100 | the filter keeps only rows of the window and never lengthens the list |
| Genetic.SplitByTimeRange | src/ga.py:97-101 | morning rows are before noon, afternoon rows at or after it, and together they are the input rows |
| Genetic.SplitIsPartition | src/ga.py:97-101 | every row lands in exactly one of the two subsets |
| Genetic.RowsInAppend | src/ga.py:99-100 | the filter keeps relative order: it distributes over concatenation |
| Genetic.RowsInKeepsWindow | src/ga.py:99-100 | rows all in the window are kept whole, rows all outside are dropped |
| Genetic.InitialAllIn | src/ga.py:36-70 | the packer's solution for one window's rows holds only that window's parts |
| Genetic.JoinWindows | src/ga.py:109-114 | joining the two windows' results adds their fitness, has the two packer solutions' shape, and keeps each half in its window |
| Genetic.GeneticAlgorithm | src/ga.py:103-114 | the returned fitness is the result's, equal to the morning packer's plus the afternoon packer's; the result has their shape and every plate is in one window |
| Genetic.GeneticAlgorithmSeparatesWindows | src/ga.py:103-114 | the morning plates come first and hold only morning parts; the rest hold only afternoon parts |

## Left out

- Reading and writing CSV files, the module-level data, the printed report and the
  GA driver's retry loop are I/O. Rows arrive already sorted by order time.
- Parsing timestamps with `strptime` is left out. A `Stamp` stands for the parsed
  value, with the date as an opaque tag.
- The `volume` column is never used.
- The global `dimensions_lookup` and the GA reporter's row scan are replaced by
  the `dims` parameter.
- The `random` module is left out: every draw is a parameter.
- Floating point is left out:
  - the temperature, `math.exp` and `random.uniform` become one accept bit per
    trial, consulted only for a move that raises the objective;
  - the mutation-rate coin becomes a boolean.
- Python aliasing is left out, and the model's part-conservation results hold
  only under value semantics. A crossover child shares plate lists with two
  different survivors (`src/ga.py:84`). The source's in-place `mutate`
  (`src/ga.py:93-95`) then swaps a part between those shared lists. The survivor
  that owns one list gains the other's part and loses its own, and so does every
  earlier child sharing that list. All members start with the same contents
  (`src/ga.py:118`), so in the source any member can list one part twice and
  omit another, including the solution `min` returns (`src/ga.py:132`), since
  all fitnesses are equal. `Genetic.Mutate`, `Genetic.ExchangeKeepsParts` and
  the other multiset results describe each swap on its own value, not this
  shared state. Plate sizes and fitness are unaffected, because every swap is
  one for one. Windows are unaffected too, because every part of one subset is
  in the same window. So the shape, fitness and window results of
  `Genetic.GeneticSubset` and `Genetic.GeneticAlgorithm` do not depend on this
  simplification.
- Annealing.SimulatedAnnealing: the number of iterations is the length of the
  trial list, not the fixed geometric schedule from 1000 down to 1 (factor
  0.99 * 1.01, about 69 thousand iterations), because the schedule is floating
  point.
- Scoring.Utilization: returns the exact used/total ratio, not the float
  percentage.
- Scoring.Utilization: the bound of 0 to 100 percent that a percentage suggests is
  not proved, and it does not hold unless every footprint fits within
  PLATE_SIZE - 2 * BUFFER: the packer places an oversize item anyway, and
  `Annealing.OversizeUtilization` (144 percent) and
  `Annealing.AsWrittenOversizeUtilization` (108 percent) exhibit the excess.
- Scoring.Utilization: the GA reporter skips a part whose name has no row, while
  the model's lookup always gives a footprint.
- Ranking.SortKeepsEqualKeys: proves the stability of `list.sort` only for lists
  whose keys are all equal, not for every pair of equal keys.
- Genetic.BreedFromPool: holds only when no mutation coin falls under the rate,
  because a mutation moves parts between plates.
- Genetic.ChildFromBestQuarter: holds only when no mutation coin falls under the
  rate, for the same reason.
- Baseline.InitialNoEmptyPlates: for the source's rule, it requires every footprint
  to fit inside the margins. Without that, the source does produce an empty plate
  (see Findings).

## Findings

| source | as written | input that shows it | evidently intended | confidence | as-written member | corrected member |
|---|---|---|---|---|---|---|
| src/sa.py:53-55 | a row wrap moves the cursor down by the incoming part's height, not by the height of the row just finished | a 300x400x10 item then a 200x200x10 item, both at 08:00: the second lands at (5,215), inside the first (y from 5 to 405) | parts on one plate never overlap | not executed | Baseline.AsWrittenOverlaps | Baseline.CorrectedInitialFeasible |
| src/sa.py:57-59 | a vertical overflow pushes the current plate even when it is empty | one 100x495x10 item at 08:00 gives `[[], [part]]` | no empty plate is ever output | not executed | Baseline.AsWrittenEmptyPlate | Baseline.InitialNoEmptyPlates |
| src/sa.py:95 | the move reads the first part of plate p, which the packer may have left empty | the same 100x495 item and a first draw of plate 0: IndexError | annealing never raises | not executed | Annealing.AsWrittenAnnealingRaises | Annealing.SimulatedAnnealing |

=== FILE: annealing.dfy ===
/** Simulated annealing over one solution: the neighbour move and the
    best-tracking loop.  The Metropolis coin and the cooling schedule are
    floating point in the source; here each iteration receives its accept
    decision as an oracle, and the number of iterations is the length of
    the list of trials. */
module Annealing {
  import opened TimeRange
  import opened Layout
  import opened Geometry
  import opened Scoring
  import opened Baseline

  /** The random choices of one neighbour move: the plate, the two distinct
      positions swapped on it, and the position on the next plate of the
      part offered to it. */
  datatype Draw = Draw(plate: nat, first: nat, second: nat, pick: nat)

  /** Each choice lies in the range the source draws it from, whenever the
      source draws it at all. */
  predicate ValidDraw(plates: Solution, d: Draw) {
    |plates| > 1 ==>
      && d.plate < |plates|
      && (|plates[d.plate]| > 1 ==>
            d.first < |plates[d.plate]| && d.second < |plates[d.plate]| && d.first != d.second)
      && (d.plate + 1 < |plates| && |plates[d.plate + 1]| > 0 ==> d.pick < |plates[d.plate + 1]|)
  }

  /** Step 1 of the move: swap two parts of the chosen plate, if it has two. */
  function Shuffle(plates: Solution, d: Draw): (r: Solution)
    requires |plates| > 1 && ValidDraw(plates, d)
    ensures |r| == |plates|
    ensures forall k :: 0 <= k < |r| && k != d.plate ==> r[k] == plates[k]
    ensures |r[d.plate]| == |plates[d.plate]|
    ensures multiset(r[d.plate]) == multiset(plates[d.plate])
    ensures multiset(Flatten(r)) == multiset(Flatten(plates))
  {
    var p := d.plate;
    if |plates[p]| > 1 then
      var a := Swap(plates[p], d.first, d.second);
      FlattenUpdateSame(plates, p, a);
      plates[p := a]
    else
      plates
  }

  /** Step 2 of the move, once accepted: the part goes to the end of plate p
      and its first occurrence leaves plate p + 1. */
  function MovePart(plates: Solution, p: nat, part: Part): (r: Solution)
    requires p + 1 < |plates| && part in plates[p + 1]
    ensures |r| == |plates|
    ensures r[p] == plates[p] + [part]
    ensures r[p + 1] == RemoveFirst(plates[p + 1], part)
    ensures forall k :: 0 <= k < |r| && k != p && k != p + 1 ==> r[k] == plates[k]
    ensures multiset(Flatten(r)) == multiset(Flatten(plates))
  {
    var s1 := plates[p := plates[p] + [part]];
    var s2 := s1[p + 1 := RemoveFirst(plates[p + 1], part)];
    FlattenUpdatePair(plates, p, plates[p] + [part], RemoveFirst(plates[p + 1], part));
    s2
  }

  /** `neighbor_solution`.  Reading the first part of an empty plate p
      raises in the source; that is the IndexError outcome. */
  function Neighbor(plates: Solution, d: Draw, dims: DimsOf): (r: Result<Solution>)
    requires ValidDraw(plates, d)
    ensures |plates| <= 1 ==> r == Ok(plates)
    ensures r.Err? <==> (|plates| > 1 && d.plate + 1 < |plates| && |plates[d.plate + 1]| > 0
                         && |plates[d.plate]| == 0)
    ensures r.Err? ==> r.error == IndexError
    ensures r.Ok? ==> multiset(Flatten(r.value)) == multiset(Flatten(plates))
    ensures r.Ok? ==> |r.value| <= |plates|
    ensures r.Ok? && |plates| > 1 ==> NoEmptyPlates(r.value)
  {
    if |plates| <= 1 then
      Ok(plates)
    else
      var p := d.plate;
      var shuffled := Shuffle(plates, d);
      if p + 1 < |shuffled| && |shuffled[p + 1]| > 0 then
        var part := shuffled[p + 1][d.pick];
        if |shuffled[p]| == 0 then
          Err(IndexError)
        else if IsSameTimeRange(shuffled[p][0].time, part.time) && FitsOn(shuffled[p], part, dims) then
          Ok(DropEmpty(MovePart(shuffled, p, part)))
        else
          Ok(DropEmpty(shuffled))
      else
        Ok(DropEmpty(shuffled))
  }

  /** A move never adds a plate and keeps every part, so it never raises the
      objective. */
  lemma NeighborCost(plates: Solution, d: Draw, dims: DimsOf)
    requires ValidDraw(plates, d)
    ensures Neighbor(plates, d, dims).Ok? ==> Cost(Neighbor(plates, d, dims).value) <= Cost(plates)
  {
    var r := Neighbor(plates, d, dims);
    if r.Ok? {
      CostOfFewerPlates(r.value, plates);
    }
  }

  lemma FeasibleSubset(sol: Solution, sub: Solution, dims: DimsOf)
    requires Feasible(sol, dims)
    requires forall q :: q in sub ==> q in sol
    ensures Feasible(sub, dims)
  {
    forall k | 0 <= k < |sub|
      ensures Homogeneous(sub[k]) && PairwiseSeparated(sub[k], dims)
    {
      assert sub[k] in sol;
    }
  }

  lemma ShuffleFeasible(plates: Solution, d: Draw, dims: DimsOf)
    requires |plates| > 1 && ValidDraw(plates, d)
    requires Feasible(plates, dims)
    ensures Feasible(Shuffle(plates, d), dims)
  {
    var p := d.plate;
    if |plates[p]| > 1 {
      var a := Swap(plates[p], d.first, d.second);
      PairwiseSwap(plates[p], d.first, d.second, dims);
      assert forall x :: x in a ==> x in multiset(plates[p]);
      HomogeneousSubset(plates[p], a);
    }
  }

  lemma MoveFeasible(plates: Solution, p: nat, part: Part, dims: DimsOf)
    requires p + 1 < |plates| && part in plates[p + 1]
    requires Feasible(plates, dims)
    requires |plates[p]| > 0 && IsSameTimeRange(plates[p][0].time, part.time)
    requires FitsOn(plates[p], part, dims)
    ensures Feasible(MovePart(plates, p, part), dims)
  {
    var r := MovePart(plates, p, part);
    PairwiseSnoc(plates[p], part, dims);
    assert Homogeneous(r[p]) by {
      var ext := plates[p] + [part];
      assert ext[0] == plates[p][0];
      forall i | 0 <= i < |ext|
        ensures BucketOf(ext[i].time) == BucketOf(ext[0].time)
      {
        if i < |plates[p]| {
          assert ext[i] == plates[p][i];
        }
      }
    }
    var k := IndexOf(plates[p + 1], part);
    PairwiseRemoveAt(plates[p + 1], k, dims);
    HomogeneousSubset(plates[p + 1], r[p + 1]);
  }

  /** A move keeps every plate within one time window and free of overlaps. */
  lemma NeighborFeasible(plates: Solution, d: Draw, dims: DimsOf)
    requires ValidDraw(plates, d)
    requires Feasible(plates, dims)
    ensures Neighbor(plates, d, dims).Ok? ==> Feasible(Neighbor(plates, d, dims).value, dims)
  {
    if |plates| > 1 {
      var p := d.plate;
      var shuffled: Solution := Shuffle(plates, d);
      ShuffleFeasible(plates, d, dims);
      if p + 1 < |shuffled| && |shuffled[p + 1]| > 0 {
        var part: Part := shuffled[p + 1][d.pick];
        if |shuffled[p]| > 0 {
          if IsSameTimeRange(shuffled[p][0].time, part.time) && FitsOn(shuffled[p], part, dims) {
            MoveFeasible(shuffled, p, part, dims);
            FeasibleSubset(MovePart(shuffled, p, part), DropEmpty(MovePart(shuffled, p, part)), dims);
          } else {
            FeasibleSubset(shuffled, DropEmpty(shuffled), dims);
          }
        }
      } else {
        FeasibleSubset(shuffled, DropEmpty(shuffled), dims);
      }
    }
  }

  /** On a solution without empty plates a move never raises. */
  lemma NeighborWithoutEmptyPlates(plates: Solution, d: Draw, dims: DimsOf)
    requires ValidDraw(plates, d)
    requires NoEmptyPlates(plates)
    ensures Neighbor(plates, d, dims).Ok?
    ensures NoEmptyPlates(Neighbor(plates, d, dims).value)
  {
  }

  // ---------------------------------------------------------------------
  // Drawing the random choices

  /** Unconstrained random numbers for one move, before they are reduced to
      the ranges the source draws from. */
  datatype Raw = Raw(plate: nat, first: nat, second: nat, pick: nat)

  /** Reduces raw numbers to a valid draw. */
  function Resolve(plates: Solution, raw: Raw): (d: Draw)
    ensures ValidDraw(plates, d)
  {
    if |plates| <= 1 then
      Draw(0, 0, 0, 0)
    else
      var p := Reduce(raw.plate, |plates|);
      var n := |plates[p]|;
      var i := if n > 1 then Reduce(raw.first, n) else 0;
      var j := if n > 1 then SkipOver(Reduce(raw.second, n - 1), i) else 0;
      var k := if p + 1 < |plates| then Reduce(raw.pick, |plates[p + 1]|) else 0;
      Draw(p, i, j, k)
  }

  /** The raw numbers that `Resolve` maps back to a given draw. */
  function Unresolve(d: Draw): Raw {
    Raw(d.plate, d.first, if d.second <= d.first then d.second else d.second - 1, d.pick)
  }

  /** The two draws make the same choices wherever the move consults them. */
  predicate SameChoices(plates: Solution, d: Draw, e: Draw) {
    |plates| > 1 ==>
      && d.plate == e.plate
      && (d.plate < |plates| && |plates[d.plate]| > 1 ==> d.first == e.first && d.second == e.second)
      && (d.plate + 1 < |plates| && |plates[d.plate + 1]| > 0 ==> d.pick == e.pick)
  }

  lemma ResolveUnresolve(plates: Solution, d: Draw)
    requires ValidDraw(plates, d)
    ensures SameChoices(plates, Resolve(plates, Unresolve(d)), d)
  {
  }

  lemma NeighborSameChoices(plates: Solution, d: Draw, e: Draw, dims: DimsOf)
    requires ValidDraw(plates, d) && ValidDraw(plates, e)
    requires SameChoices(plates, d, e)
    ensures Neighbor(plates, d, dims) == Neighbor(plates, e, dims)
  {
    if |plates| > 1 {
      assert Shuffle(plates, d) == Shuffle(plates, e);
    }
  }

  /** Every valid draw is reached from some raw numbers, so reducing them
      loses none of the source's moves. */
  lemma ResolveReachesEveryDraw(plates: Solution, d: Draw, dims: DimsOf)
    requires ValidDraw(plates, d)
    ensures Neighbor(plates, Resolve(plates, Unresolve(d)), dims) == Neighbor(plates, d, dims)
  {
    ResolveUnresolve(plates, d);
    NeighborSameChoices(plates, Resolve(plates, Unresolve(d)), d, dims);
  }

  // ---------------------------------------------------------------------
  // The annealing loop

  /** The loop state: the current solution and the best seen, each with its
      cached objective. */
  datatype Annealer = Annealer(current: Solution, currentCost: int, best: Solution, bestCost: int)

  /** One iteration's randomness: the move's raw numbers and the outcome of
      the Metropolis coin, consulted only when the move raises the
      objective.  An equal objective is always taken, since a uniform draw
      in [0, 1) is always below exp(0) = 1. */
  datatype Trial = Trial(raw: Raw, accept: bool)

  function Begin(start: Solution): Annealer {
    Annealer(start, Cost(start), start, Cost(start))
  }

  /** The cached objectives are right, and the best is no worse than the current. */
  predicate Tracking(a: Annealer) {
    a.currentCost == Cost(a.current) && a.bestCost == Cost(a.best) && a.bestCost <= a.currentCost
  }

  /** Current and best hold the same parts. */
  predicate SameParts(a: Annealer) {
    multiset(Flatten(a.current)) == multiset(Flatten(a.best))
  }

  predicate FeasibleState(a: Annealer, dims: DimsOf) {
    Feasible(a.current, dims) && Feasible(a.best, dims)
  }

  predicate NoEmptyAnnealer(a: Annealer) {
    NoEmptyPlates(a.current) && NoEmptyPlates(a.best)
  }

  /** The acceptance rule: an objective no higher than the current one is
      always taken, a higher one only when the coin says so; the best is
      replaced only by a strictly lower objective. */
  function Accept(a: Annealer, next: Solution, coin: bool): (r: Annealer)
    ensures r == a || (r.current == next && r.currentCost == Cost(next))
    ensures r.current == (if Cost(next) <= a.currentCost || coin then next else a.current)
    ensures Cost(next) <= a.currentCost ==> r.current == next
    ensures r.bestCost <= a.bestCost
    ensures (r.best == a.best && r.bestCost == a.bestCost)
            || (r.bestCost < a.bestCost && r.best == next && r.best == r.current)
    ensures Tracking(a) ==> Tracking(r)
  {
    var nextCost := Cost(next);
    if nextCost <= a.currentCost || coin then
      if nextCost < a.bestCost then Annealer(next, nextCost, next, nextCost)
      else Annealer(next, nextCost, a.best, a.bestCost)
    else
      a
  }

  /** One iteration of the source's cooling loop. */
  function Step(a: Annealer, t: Trial, dims: DimsOf): (r: Result<Annealer>)
    ensures r.Err? <==> Neighbor(a.current, Resolve(a.current, t.raw), dims).Err?
    ensures r.Ok? ==> r.value.bestCost <= a.bestCost
    ensures r.Ok? ==> (r.value.best == a.best && r.value.bestCost == a.bestCost)
                      || (r.value.bestCost < a.bestCost && r.value.best == r.value.current)
    ensures r.Ok? && Tracking(a) ==> Tracking(r.value)
  {
    match Neighbor(a.current, Resolve(a.current, t.raw), dims)
    case Err(e) => Err(e)
    case Ok(next) => Ok(Accept(a, next, t.accept))
  }

  /** A move never raises the objective, so every iteration that does not
      raise takes the neighbour as its current solution, whatever the coin. */
  lemma StepTakesEveryMove(a: Annealer, t: Trial, dims: DimsOf)
    requires Tracking(a)
    ensures Step(a, t, dims).Ok? ==>
              Step(a, t, dims).value.current == Neighbor(a.current, Resolve(a.current, t.raw), dims).value
  {
    var n := Neighbor(a.current, Resolve(a.current, t.raw), dims);
    if n.Ok? {
      NeighborCost(a.current, Resolve(a.current, t.raw), dims);
    }
  }

  /** Accepting a solution with the parts of the current one keeps both
      solutions' parts. */
  lemma AcceptKeepsParts(a: Annealer, next: Solution, coin: bool)
    requires SameParts(a) && multiset(Flatten(next)) == multiset(Flatten(a.current))
    ensures SameParts(Accept(a, next, coin))
    ensures multiset(Flatten(Accept(a, next, coin).best)) == multiset(Flatten(a.best))
  {
  }

  lemma AcceptKeepsFeasible(a: Annealer, next: Solution, coin: bool, dims: DimsOf)
    requires FeasibleState(a, dims) && Feasible(next, dims)
    ensures FeasibleState(Accept(a, next, coin), dims)
  {
  }

  lemma AcceptKeepsNoEmpty(a: Annealer, next: Solution, coin: bool)
    requires NoEmptyAnnealer(a) && NoEmptyPlates(next)
    ensures NoEmptyAnnealer(Accept(a, next, coin))
  {
  }

  /** An iteration keeps the parts of both solutions, keeps them feasible,
      and on solutions without empty plates never raises. */
  lemma StepPreserves(a: Annealer, t: Trial, dims: DimsOf)
    ensures Step(a, t, dims).Ok? && SameParts(a) ==>
              SameParts(Step(a, t, dims).value)
              && multiset(Flatten(Step(a, t, dims).value.best)) == multiset(Flatten(a.best))
    ensures Step(a, t, dims).Ok? && FeasibleState(a, dims) ==> FeasibleState(Step(a, t, dims).value, dims)
    ensures NoEmptyAnnealer(a) ==> Step(a, t, dims).Ok? && NoEmptyAnnealer(Step(a, t, dims).value)
  {
    var d := Resolve(a.current, t.raw);
    var n := Neighbor(a.current, d, dims);
    if NoEmptyPlates(a.current) {
      NeighborWithoutEmptyPlates(a.current, d, dims);
    }
    if n.Ok? {
      var next := n.value;
      assert Step(a, t, dims) == Ok(Accept(a, next, t.accept));
      if SameParts(a) {
        AcceptKeepsParts(a, next, t.accept);
      }
      if FeasibleState(a, dims) {
        NeighborFeasible(a.current, d, dims);
        AcceptKeepsFeasible(a, next, t.accept, dims);
      }
      if NoEmptyAnnealer(a) {
        AcceptKeepsNoEmpty(a, next, t.accept);
      }
    }
  }

  /** The loop over all trials; the first move that raises ends the run. */
  function Anneal(a: Annealer, trials: seq<Trial>, dims: DimsOf): (r: Result<Annealer>)
    ensures r.Ok? ==> r.value.bestCost <= a.bestCost
    ensures r.Ok? && Tracking(a) ==> Tracking(r.value)
    ensures r.Ok? && SameParts(a) ==> SameParts(r.value) && multiset(Flatten(r.value.best)) == multiset(Flatten(a.best))
    ensures r.Ok? && FeasibleState(a, dims) ==> FeasibleState(r.value, dims)
    ensures NoEmptyAnnealer(a) ==> r.Ok? && NoEmptyAnnealer(r.value)
    decreases |trials|
  {
    if |trials| == 0 then
      Ok(a)
    else
      match Step(a, trials[0], dims)
      case Err(e) => Err(e)
      case Ok(next) =>
        StepPreserves(a, trials[0], dims);
        Anneal(next, trials[1..], dims)
  }

  /** `simulated_annealing`: start from the packer's solution and return the
      best solution seen with its objective. */
  function SimulatedAnnealing(rows: seq<Row>, rule: Packing, dims: DimsOf, trials: seq<Trial>)
    : (r: Result<(Solution, int)>)
    ensures r.Ok? ==> r.value.1 == Cost(r.value.0)
    ensures r.Ok? ==> r.value.1 <= Cost(Initial(rows, rule))
    ensures r.Ok? ==> multiset(Flatten(r.value.0)) == multiset(Flatten(Initial(rows, rule)))
    ensures rule == Corrected ==> r.Ok?
    ensures rule == Corrected && RowsAgree(rows, dims) ==> Feasible(r.value.0, dims)
  {
    var start := Initial(rows, rule);
    assert rule == Corrected ==> NoEmptyPlates(start) by {
      if rule == Corrected {
        InitialNoEmptyPlates(rows, rule);
      }
    }
    assert rule == Corrected && RowsAgree(rows, dims) ==> Feasible(start, dims) by {
      if rule == Corrected && RowsAgree(rows, dims) {
        CorrectedInitialFeasible(rows, dims);
      }
    }
    match Anneal(Begin(start), trials, dims)
    case Err(e) => Err(e)
    case Ok(a) => Ok((a.best, a.bestCost))
  }

  /** Source rule: the empty first plate the packer leaves for a 100x495
      unit makes the first move on plate 0 read from an empty plate, and the
      run raises.  The corrected packer leaves no empty plate, so the run
      never raises. */
  lemma AsWrittenAnnealingRaises(dims: DimsOf)
    ensures SimulatedAnnealing([Row("G", 100, 495, 10, 1, MORNING_8)], AsWritten, dims,
                               [Trial(Raw(0, 0, 0, 0), false)]) == Err(IndexError)
    ensures SimulatedAnnealing([Row("G", 100, 495, 10, 1, MORNING_8)], Corrected, dims,
                               [Trial(Raw(0, 0, 0, 0), false)]).Ok?
  {
    AsWrittenEmptyPlate();
    var start := [[], [Part("G", MORNING_8, 5, 5)]];
    assert Resolve(start, Raw(0, 0, 0, 0)) == Draw(0, 0, 0, 0);
    assert Neighbor(start, Draw(0, 0, 0, 0), dims) == Err(IndexError);
  }

  /** The reporter's "percentage" can exceed 100: a 600x600 footprint is
      larger than the plate, yet the packer still places it at the margin, and
      the one-plate solution is feasible with used area 360000 over a plate
      area of 250000, that is 144 percent. */
  lemma OversizeUtilization(dims: DimsOf)
    requires dims("Z") == Dim(600, 600)
    ensures Initial([Row("Z", 600, 600, 10, 1, MORNING_8)], Corrected) == [[Part("Z", MORNING_8, 5, 5)]]
    ensures Feasible([[Part("Z", MORNING_8, 5, 5)]], dims)
    ensures Utilization([[Part("Z", MORNING_8, 5, 5)]], dims) == Ok(Ratio(360000, 250000))
  {
    var row := Row("Z", 600, 600, 10, 1, MORNING_8);
    var z := Unit("Z", MORNING_8, 600, 600);
    assert UnitOf(row) == z;
    UnitsOfOne(row);
    assert Copies(z, 1) == [z];
    PackOne(Start, z, Corrected);
    assert PlaceUnit(Start, z, Corrected) == Cursor([], [Part("Z", MORNING_8, 5, 5)], 615, 5, 600) by {
      assert Wrap(Start, z, Corrected) == Cursor([], [], BUFFER, BUFFER + SEPARATION, 0);
      assert Ready(Start, z, Corrected) == Start;
    }
    var sol := [[Part("Z", MORNING_8, 5, 5)]];
    assert Flatten(sol) == sol[0];
  }

  /** Under the source's rule, three 600x600 units give an empty plate and
      three single-part plates: 1080000 over 1000000, that is 108 percent. */
  lemma AsWrittenOversizeUtilization(dims: DimsOf)
    requires dims("Z") == Dim(600, 600)
    ensures Initial([Row("Z", 600, 600, 10, 3, MORNING_8)], AsWritten)
            == [[], [Part("Z", MORNING_8, 5, 5)], [Part("Z", MORNING_8, 5, 5)], [Part("Z", MORNING_8, 5, 5)]]
    ensures Utilization([[], [Part("Z", MORNING_8, 5, 5)], [Part("Z", MORNING_8, 5, 5)], [Part("Z", MORNING_8, 5, 5)]], dims)
            == Ok(Ratio(1080000, 1000000))
  {
    var row := Row("Z", 600, 600, 10, 3, MORNING_8);
    var z := Unit("Z", MORNING_8, 600, 600);
    assert UnitOf(row) == z;
    UnitsOfOne(row);
    assert Copies(z, 3) == [z, z, z];
    PackThree(Start, z, AsWritten);
    OversizeSteps(z);
    var p := [Part("Z", MORNING_8, 5, 5)];
    var sol := [[], p, p, p];
    assert PartsArea(p, dims) == 360000 by { assert p[1..] == []; }
    assert UsedArea([p], dims) == 360000 by { var none: Solution := []; assert [p][1..] == none; }
    assert UsedArea([p, p], dims) == 720000 by { assert [p, p][1..] == [p]; }
    assert UsedArea([p, p, p], dims) == 1080000 by { assert [p, p, p][1..] == [p, p]; }
    assert UsedArea(sol, dims) == 1080000 by { assert sol[1..] == [p, p, p]; }
  }

  /** The three placements: every one wraps, overflows and closes the
      plate before it, empty or not. */
  lemma OversizeSteps(z: Unit)
    requires z == Unit("Z", MORNING_8, 600, 600)
    ensures PlaceUnit(PlaceUnit(PlaceUnit(Start, z, AsWritten), z, AsWritten), z, AsWritten)
            == Cursor([[], [Part("Z", MORNING_8, 5, 5)], [Part("Z", MORNING_8, 5, 5)]],
                      [Part("Z", MORNING_8, 5, 5)], 615, 5, 600)
  {
    var p := [Part("Z", MORNING_8, 5, 5)];
    OversizeStep(z, Start, [[]]);
    var s1 := Cursor([[]], p, 615, 5, 600);
    OversizeStep(z, s1, [[], p]);
    var s2 := Cursor([[], p], p, 615, 5, 600);
    OversizeStep(z, s2, [[], p, p]);
  }

  /** One oversize placement on the top row: the unit wraps, overflows, and
      the plate it leaves is closed, empty or not. */
  lemma OversizeStep(z: Unit, s: Cursor, closed: Solution)
    requires z == Unit("Z", MORNING_8, 600, 600)
    requires s.y == BUFFER && s.x >= BUFFER
    requires closed == s.done + [s.current]
    ensures PlaceUnit(s, z, AsWritten) == Cursor(closed, [Part("Z", MORNING_8, 5, 5)], 615, 5, 600)
  {
    assert Wrap(s, z, AsWritten) == Cursor(s.done, s.current, BUFFER, 615, 0);
    assert Ready(s, z, AsWritten) == Cursor(closed, [], BUFFER, BUFFER, 0);
  }
}

=== FILE: baseline.dfy ===
/** The deterministic greedy shelf packer that builds the starting solution
    of both optimisers (`generate_initial_solution`, identical in both
    scripts).

    The packer is parametrised by a `Packing` rule.  `AsWritten` is the
    scripts' code.  `Corrected` changes two things: a row wrap advances by
    the tallest part of the row just closed rather than by the height of the
    incoming part, and a vertical overflow closes the current plate only if
    it holds parts. */
module Baseline {
  import opened TimeRange
  import opened Layout
  import opened Geometry

  /** One parsed order row: name, the three declared dimensions, quantity
      and order time.  The third dimension is carried but never used. */
  datatype Row = Row(name: string, first: int, second: int, depth: int, quantity: int, time: Stamp)

  /** One unit of quantity of a row, with the row's footprint. */
  datatype Unit = Unit(name: string, time: Stamp, w: int, h: int)

  datatype Packing = AsWritten | Corrected

  /** The packer's loop state: closed plates, the plate being filled, the
      cursor, and the height of the tallest part in the current row (only
      the corrected rule reads it). */
  datatype Cursor = Cursor(done: Solution, current: Plate, x: int, y: int, shelf: int)

  function Min(a: int, b: int): int { if a <= b then a else b }
  function Max(a: int, b: int): int { if a >= b then a else b }

  /** The first two declared dimensions, sorted ascending. */
  function Footprint(r: Row): (d: Dim)
    ensures d.w <= d.h
    ensures multiset{d.w, d.h} == multiset{r.first, r.second}
  {
    Dim(Min(r.first, r.second), Max(r.first, r.second))
  }

  function UnitOf(r: Row): Unit {
    Unit(r.name, r.time, Footprint(r).w, Footprint(r).h)
  }

  /** `range(quantity)`: no units at all when the quantity is not positive. */
  function Copies(u: Unit, n: int): (us: seq<Unit>)
    ensures |us| == Max(n, 0)
    ensures forall i :: 0 <= i < |us| ==> us[i] == u
  {
    if n <= 0 then [] else Copies(u, n - 1) + [u]
  }

  /** The units the packer visits, row after row, one per unit of quantity. */
  function Units(rows: seq<Row>): seq<Unit> {
    if |rows| == 0 then [] else Copies(UnitOf(rows[0]), rows[0].quantity) + Units(rows[1..])
  }

  /** Sum of the row quantities, a non-positive quantity counting as zero. */
  function TotalQuantity(rows: seq<Row>): nat {
    if |rows| == 0 then 0 else Max(rows[0].quantity, 0) + TotalQuantity(rows[1..])
  }

  const Start: Cursor := Cursor([], [], BUFFER, BUFFER, 0)

  /** Every part placed so far, in placement order. */
  function Contents(s: Cursor): seq<Part> {
    Flatten(s.done) + s.current
  }

  /** How far a row wrap moves the cursor down, before SEPARATION. */
  function RowAdvance(s: Cursor, u: Unit, rule: Packing): int {
    match rule
    case AsWritten => u.h
    case Corrected => s.shelf
  }

  /** Step 1: the unit does not fit horizontally, so start a new row.  A
      wrap places nothing and closes no plate; it only moves the cursor back
      to the left margin. */
  function Wrap(s: Cursor, u: Unit, rule: Packing): (r: Cursor)
    ensures r.done == s.done && r.current == s.current
    ensures s.x + u.w + BUFFER <= PLATE_SIZE ==> r == s
    ensures r == s || (r.x == BUFFER && r.shelf == 0)
    ensures s.x + u.w + BUFFER > PLATE_SIZE ==>
              r.x == BUFFER && r.shelf == 0 && r.y == s.y + RowAdvance(s, u, rule) + SEPARATION
    ensures RowAdvance(s, u, rule) >= 0 ==> r.y >= s.y
  {
    if s.x + u.w + BUFFER > PLATE_SIZE then
      s.(x := BUFFER, y := s.y + RowAdvance(s, u, rule) + SEPARATION, shelf := 0)
    else s
  }

  /** Closing a plate: the source appends it even when it is empty; the
      corrected rule only appends a plate that holds parts. */
  function Close(done: Solution, current: Plate, rule: Packing): Solution {
    if rule == AsWritten || |current| > 0 then done + [current] else done
  }

  /** Step 2: the unit does not fit vertically, so start a new plate.  No
      placed part is lost, and the new plate starts at the top-left margin. */
  function Overflow(s: Cursor, u: Unit, rule: Packing): (r: Cursor)
    ensures s.y + u.h + BUFFER <= PLATE_SIZE ==> r == s
    ensures r == s || (r.current == [] && r.x == BUFFER && r.y == BUFFER && r.shelf == 0)
    ensures s.y + u.h + BUFFER > PLATE_SIZE ==>
              r == Cursor(Close(s.done, s.current, rule), [], BUFFER, BUFFER, 0)
  {
    if s.y + u.h + BUFFER > PLATE_SIZE then
      Cursor(Close(s.done, s.current, rule), [], BUFFER, BUFFER, 0)
    else s
  }

  /** The condition of step 3: the plate holds parts of the other time window. */
  predicate Breaks(s: Cursor, u: Unit) {
    |s.current| > 0 && !IsSameTimeRange(s.current[0].time, u.time)
  }

  /** Step 3: start a new plate when the time window changes.  Afterwards
      the unit may join the current plate, and no placed part is lost. */
  function TimeBreak(s: Cursor, u: Unit): (r: Cursor)
    ensures !Breaks(r, u)
    ensures !Breaks(s, u) ==> r == s
  {
    if Breaks(s, u) then
      Cursor(s.done + [s.current], [], BUFFER, BUFFER, 0)
    else s
  }

  /** The cursor at which the unit is placed. */
  function Ready(s: Cursor, u: Unit, rule: Packing): Cursor {
    TimeBreak(Overflow(Wrap(s, u, rule), u, rule), u)
  }

  /** The part that placing u from state s produces. */
  function Placed(s: Cursor, u: Unit, rule: Packing): Part {
    Part(u.name, u.time, Ready(s, u, rule).x, Ready(s, u, rule).y)
  }

  /** Step 4: place the unit at the cursor and advance along the row; the
      shelf becomes the tallest part of the row so far. */
  function Put(s: Cursor, u: Unit): (r: Cursor)
    ensures r.current == s.current + [Part(u.name, u.time, s.x, s.y)]
    ensures r.done == s.done && r.y == s.y
    ensures r.x == s.x + u.w + SEPARATION
    ensures r.shelf >= s.shelf && r.shelf >= u.h
    ensures r.shelf == s.shelf || r.shelf == u.h
  {
    s.(current := s.current + [Part(u.name, u.time, s.x, s.y)],
       x := s.x + u.w + SEPARATION,
       shelf := Max(s.shelf, u.h))
  }

  /** One pass of the loop body: the unit's part ends the current plate,
      and the cursor is past it on the same row. */
  function PlaceUnit(s: Cursor, u: Unit, rule: Packing): (r: Cursor)
    ensures |r.current| > 0 && r.current[|r.current| - 1] == Placed(s, u, rule)
    ensures r.y == Placed(s, u, rule).y && r.x == Placed(s, u, rule).x + u.w + SEPARATION
  {
    Put(Ready(s, u, rule), u)
  }

  function PackUnits(s: Cursor, us: seq<Unit>, rule: Packing): Cursor
    decreases |us|
  {
    if |us| == 0 then s else PackUnits(PlaceUnit(s, us[0], rule), us[1..], rule)
  }

  /** After the last unit, the plate being filled is kept if it holds parts. */
  function Finish(s: Cursor): Solution {
    if |s.current| > 0 then s.done + [s.current] else s.done
  }

  /** `generate_initial_solution` over rows already sorted by order time:
      one part per unit of quantity, a non-positive quantity giving none. */
  function Initial(rows: seq<Row>, rule: Packing): (sol: Solution)
    ensures PartCount(sol) == TotalQuantity(rows)
  {
    var s := PackUnits(Start, Units(rows), rule);
    InitialConserves(rows, s, rule);
    Finish(s)
  }

  // ---------------------------------------------------------------------
  // Units

  lemma {:induction false} UnitsCount(rows: seq<Row>)
    ensures |Units(rows)| == TotalQuantity(rows)
  {
    if |rows| > 0 {
      UnitsCount(rows[1..]);
    }
  }

  /** Every unit comes from one of the rows. */
  lemma {:induction false} UnitsFromRows(rows: seq<Row>)
    ensures forall u :: u in Units(rows) ==> exists r :: r in rows && u == UnitOf(r)
  {
    if |rows| > 0 {
      UnitsFromRows(rows[1..]);
      var c := Copies(UnitOf(rows[0]), rows[0].quantity);
      forall u | u in Units(rows)
        ensures exists r :: r in rows && u == UnitOf(r)
      {
        if u in c {
          assert rows[0] in rows;
        } else {
          assert u in Units(rows[1..]);
          var r :| r in rows[1..] && u == UnitOf(r);
          assert r in rows;
        }
      }
    }
  }

  lemma UnitsSnoc(rows: seq<Row>, r: Row)
    ensures Units(rows + [r]) == Units(rows) + Copies(UnitOf(r), r.quantity)
  {
    if |rows| == 0 {
      assert Units([r][1..]) == [];
      assert rows + [r] == [r];
    } else {
      assert (rows + [r])[1..] == rows[1..] + [r];
      UnitsSnoc(rows[1..], r);
    }
  }

  // ---------------------------------------------------------------------
  // Placement as appending to the list of placed parts

  lemma {:induction false} PackUnitsAppend(s: Cursor, a: seq<Unit>, b: seq<Unit>, rule: Packing)
    ensures PackUnits(s, a + b, rule) == PackUnits(PackUnits(s, a, rule), b, rule)
    decreases |a|
  {
    if |a| > 0 {
      assert (a + b)[0] == a[0];
      assert (a + b)[1..] == a[1..] + b;
      PackUnitsAppend(PlaceUnit(s, a[0], rule), a[1..], b, rule);
    } else {
      assert a + b == b;
    }
  }

  lemma PackUnitsSnoc(s: Cursor, a: seq<Unit>, u: Unit, rule: Packing)
    ensures PackUnits(s, a + [u], rule) == PlaceUnit(PackUnits(s, a, rule), u, rule)
  {
    PackUnitsAppend(s, a, [u], rule);
    assert [u][1..] == [];
  }

  /** Closing the current plate (when it is closed at all) keeps the list of
      placed parts. */
  lemma CloseKeepsContents(done: Solution, current: Plate, rule: Packing)
    ensures Flatten(Close(done, current, rule)) == Flatten(done) + current
  {
    FlattenSnoc(done, current);
    if !(rule == AsWritten || |current| > 0) {
      assert current == [];
    }
  }

  /** Closing a plate on overflow loses no placed part. */
  lemma OverflowKeepsContents(s: Cursor, u: Unit, rule: Packing)
    ensures Contents(Overflow(s, u, rule)) == Contents(s)
  {
    if s.y + u.h + BUFFER > PLATE_SIZE {
      CloseKeepsContents(s.done, s.current, rule);
    }
  }

  /** Closing a plate at a window change loses no placed part. */
  lemma TimeBreakKeepsContents(s: Cursor, u: Unit)
    ensures Contents(TimeBreak(s, u)) == Contents(s)
  {
    if Breaks(s, u) {
      FlattenSnoc(s.done, s.current);
    }
  }

  /** Placing a unit appends exactly the placed part to the parts placed so far. */
  lemma PlaceUnitAppends(s: Cursor, u: Unit, rule: Packing)
    ensures Contents(PlaceUnit(s, u, rule)) == Contents(s) + [Placed(s, u, rule)]
  {
    var w := Wrap(s, u, rule);
    var o := Overflow(w, u, rule);
    OverflowKeepsContents(w, u, rule);
    TimeBreakKeepsContents(o, u);
  }

  lemma FinishKeepsContents(s: Cursor)
    ensures Flatten(Finish(s)) == Contents(s)
  {
    FlattenSnoc(s.done, s.current);
  }

  // ---------------------------------------------------------------------
  // Conservation and order

  /** The parts are the units, one for one and in order, by name and time. */
  predicate Matches(ps: seq<Part>, us: seq<Unit>) {
    |ps| == |us| && forall i :: 0 <= i < |ps| ==> ps[i].name == us[i].name && ps[i].time == us[i].time
  }

  lemma {:induction false} PackMatches(s: Cursor, placed: seq<Unit>, us: seq<Unit>, rule: Packing)
    requires Matches(Contents(s), placed)
    ensures Matches(Contents(PackUnits(s, us, rule)), placed + us)
    decreases |us|
  {
    if |us| > 0 {
      PlaceUnitAppends(s, us[0], rule);
      assert Matches(Contents(PlaceUnit(s, us[0], rule)), placed + [us[0]]);
      PackMatches(PlaceUnit(s, us[0], rule), placed + [us[0]], us[1..], rule);
      assert placed + [us[0]] + us[1..] == placed + us;
    } else {
      assert placed + us == placed;
    }
  }

  /** The packer's final state for the rows holds their units, one part each. */
  lemma InitialConserves(rows: seq<Row>, s: Cursor, rule: Packing)
    requires s == PackUnits(Start, Units(rows), rule)
    ensures Matches(Flatten(Finish(s)), Units(rows))
    ensures PartCount(Finish(s)) == TotalQuantity(rows)
  {
    assert Contents(Start) == [] by {
      assert Flatten([]) == [];
    }
    PackMatches(Start, [], Units(rows), rule);
    assert [] + Units(rows) == Units(rows);
    FinishKeepsContents(s);
    UnitsCount(rows);
    PartCountIsFlattenLength(Finish(s));
  }

  /** Reading the plates in order gives one part per unit of quantity, with
      the unit's name and order time, in the order of the input rows. */
  lemma InitialMatchesUnits(rows: seq<Row>, rule: Packing)
    ensures Matches(Flatten(Initial(rows, rule)), Units(rows))
  {
    InitialConserves(rows, PackUnits(Start, Units(rows), rule), rule);
  }

  // ---------------------------------------------------------------------
  // Time windows

  predicate PlatesHomogeneous(sol: Solution) {
    forall k :: 0 <= k < |sol| ==> Homogeneous(sol[k])
  }

  predicate HomogeneousState(s: Cursor) {
    PlatesHomogeneous(s.done) && Homogeneous(s.current)
  }

  lemma PlaceUnitHomogeneous(s: Cursor, u: Unit, rule: Packing)
    requires HomogeneousState(s)
    ensures HomogeneousState(PlaceUnit(s, u, rule))
  {
    var t := Ready(s, u, rule);
    assert HomogeneousState(t);
    var c := t.current + [Part(u.name, u.time, t.x, t.y)];
    assert c[0] == (if |t.current| > 0 then t.current[0] else c[|t.current|]);
    assert Homogeneous(c);
  }

  lemma {:induction false} PackHomogeneous(s: Cursor, us: seq<Unit>, rule: Packing)
    requires HomogeneousState(s)
    ensures HomogeneousState(PackUnits(s, us, rule))
    decreases |us|
  {
    if |us| > 0 {
      PlaceUnitHomogeneous(s, us[0], rule);
      PackHomogeneous(PlaceUnit(s, us[0], rule), us[1..], rule);
    }
  }

  /** Every plate of the starting solution holds parts of one time window
      only: each part's window is that of the plate's first part. */
  lemma InitialHomogeneous(rows: seq<Row>, rule: Packing)
    ensures PlatesHomogeneous(Initial(rows, rule))
  {
    PackHomogeneous(Start, Units(rows), rule);
  }

  /** A unit is never put on a plate that holds parts of the other window. */
  lemma InitialSeparatesWindows(rows: seq<Row>, rule: Packing)
    ensures var sol := Initial(rows, rule);
            forall k, i, j :: 0 <= k < |sol| && 0 <= i < |sol[k]| && 0 <= j < |sol[k]| ==>
              IsSameTimeRange(sol[k][i].time, sol[k][j].time)
  {
    InitialHomogeneous(rows, rule);
  }

  // ---------------------------------------------------------------------
  // Margins and containment

  predicate NonNegativeUnits(us: seq<Unit>) {
    forall i :: 0 <= i < |us| ==> us[i].w >= 0 && us[i].h >= 0
  }

  /** Every unit footprint fits inside the plate with BUFFER on both sides. */
  predicate BoundedUnits(us: seq<Unit>) {
    forall i :: 0 <= i < |us| ==>
      0 <= us[i].w <= PLATE_SIZE - 2 * BUFFER && 0 <= us[i].h <= PLATE_SIZE - 2 * BUFFER
  }

  predicate NonNegativeRows(rows: seq<Row>) {
    forall i :: 0 <= i < |rows| ==> rows[i].first >= 0 && rows[i].second >= 0
  }

  predicate BoundedRows(rows: seq<Row>) {
    forall i :: 0 <= i < |rows| ==>
      0 <= rows[i].first <= PLATE_SIZE - 2 * BUFFER && 0 <= rows[i].second <= PLATE_SIZE - 2 * BUFFER
  }

  lemma RowBoundsToUnits(rows: seq<Row>)
    ensures NonNegativeRows(rows) ==> NonNegativeUnits(Units(rows))
    ensures BoundedRows(rows) ==> BoundedUnits(Units(rows))
  {
    UnitsFromRows(rows);
    forall i | 0 <= i < |Units(rows)|
      ensures NonNegativeRows(rows) ==> Units(rows)[i].w >= 0 && Units(rows)[i].h >= 0
      ensures BoundedRows(rows) ==> 0 <= Units(rows)[i].w <= PLATE_SIZE - 2 * BUFFER
                                    && 0 <= Units(rows)[i].h <= PLATE_SIZE - 2 * BUFFER
    {
      assert Units(rows)[i] in Units(rows);
      var r :| r in rows && Units(rows)[i] == UnitOf(r);
      var k :| 0 <= k < |rows| && rows[k] == r;
    }
  }

  /** The cursor and every placed part are at least BUFFER from the top-left edges. */
  predicate MarginState(s: Cursor) {
    && s.x >= BUFFER && s.y >= BUFFER && s.shelf >= 0
    && forall i :: 0 <= i < |Contents(s)| ==> Contents(s)[i].x >= BUFFER && Contents(s)[i].y >= BUFFER
  }

  lemma PlaceUnitMargins(s: Cursor, u: Unit, rule: Packing)
    requires MarginState(s)
    requires u.w >= 0 && u.h >= 0
    ensures MarginState(PlaceUnit(s, u, rule))
  {
    PlaceUnitAppends(s, u, rule);
    var t := Ready(s, u, rule);
    assert t.x >= BUFFER && t.y >= BUFFER && t.shelf >= 0;
  }

  lemma {:induction false} PackMargins(s: Cursor, us: seq<Unit>, rule: Packing)
    requires MarginState(s)
    requires NonNegativeUnits(us)
    ensures MarginState(PackUnits(s, us, rule))
    decreases |us|
  {
    if |us| > 0 {
      PlaceUnitMargins(s, us[0], rule);
      PackMargins(PlaceUnit(s, us[0], rule), us[1..], rule);
    }
  }

  /** Part i lies inside the plate, with BUFFER clearance on the far sides,
      when it has the footprint of unit i. */
  predicate Inside(ps: seq<Part>, us: seq<Unit>) {
    |ps| == |us|
    && forall i :: 0 <= i < |ps| ==>
         ps[i].x + us[i].w + BUFFER <= PLATE_SIZE && ps[i].y + us[i].h + BUFFER <= PLATE_SIZE
  }

  lemma PlacedInside(s: Cursor, u: Unit, rule: Packing)
    requires 0 <= u.w <= PLATE_SIZE - 2 * BUFFER && 0 <= u.h <= PLATE_SIZE - 2 * BUFFER
    ensures Placed(s, u, rule).x + u.w + BUFFER <= PLATE_SIZE
    ensures Placed(s, u, rule).y + u.h + BUFFER <= PLATE_SIZE
  {
  }

  lemma {:induction false} PackInside(s: Cursor, placed: seq<Unit>, us: seq<Unit>, rule: Packing)
    requires Inside(Contents(s), placed)
    requires BoundedUnits(us)
    ensures Inside(Contents(PackUnits(s, us, rule)), placed + us)
    decreases |us|
  {
    if |us| > 0 {
      PlaceUnitAppends(s, us[0], rule);
      PlacedInside(s, us[0], rule);
      var s' := PlaceUnit(s, us[0], rule);
      assert Inside(Contents(s'), placed + [us[0]]);
      PackInside(s', placed + [us[0]], us[1..], rule);
      assert placed + [us[0]] + us[1..] == placed + us;
    } else {
      assert placed + us == placed;
    }
  }

  /** With non-negative dimensions every part is at least BUFFER from the
      top and left edges; when every footprint fits in the plate with
      BUFFER on both sides, every part also ends BUFFER before the right and
      bottom edges. */
  lemma InitialWithinPlate(rows: seq<Row>, rule: Packing)
    ensures NonNegativeRows(rows) ==>
              forall p :: p in Flatten(Initial(rows, rule)) ==> p.x >= BUFFER && p.y >= BUFFER
    ensures BoundedRows(rows) ==> Inside(Flatten(Initial(rows, rule)), Units(rows))
  {
    var final := PackUnits(Start, Units(rows), rule);
    assert Flatten(Initial(rows, rule)) == Contents(final) by {
      FinishKeepsContents(final);
    }
    RowBoundsToUnits(rows);
    assert Contents(Start) == [];
    if NonNegativeRows(rows) {
      PackMargins(Start, Units(rows), rule);
    }
    if BoundedRows(rows) {
      PackInside(Start, [], Units(rows), rule);
      assert [] + Units(rows) == Units(rows);
    }
  }

  // ---------------------------------------------------------------------
  // Empty plates

  /** Closed plates hold parts; under the source's rule an empty current
      plate also has the cursor at its start. */
  predicate NoEmptyState(s: Cursor, rule: Packing) {
    NoEmptyPlates(s.done) && (rule == AsWritten && |s.current| == 0 ==> s.x == BUFFER && s.y == BUFFER)
  }

  lemma PlaceUnitNoEmpty(s: Cursor, u: Unit, rule: Packing)
    requires NoEmptyState(s, rule)
    requires rule == AsWritten ==> 0 <= u.w <= PLATE_SIZE - 2 * BUFFER && 0 <= u.h <= PLATE_SIZE - 2 * BUFFER
    ensures NoEmptyState(PlaceUnit(s, u, rule), rule)
    ensures |PlaceUnit(s, u, rule).current| > 0
  {
  }

  lemma {:induction false} PackNoEmpty(s: Cursor, us: seq<Unit>, rule: Packing)
    requires NoEmptyState(s, rule)
    requires rule == AsWritten ==> BoundedUnits(us)
    ensures NoEmptyState(PackUnits(s, us, rule), rule)
    decreases |us|
  {
    if |us| > 0 {
      PlaceUnitNoEmpty(s, us[0], rule);
      PackNoEmpty(PlaceUnit(s, us[0], rule), us[1..], rule);
    }
  }

  /** The corrected packer never produces an empty plate; the source's packer
      does not either when every footprint fits inside the margins. */
  lemma InitialNoEmptyPlates(rows: seq<Row>, rule: Packing)
    requires rule == AsWritten ==> BoundedRows(rows)
    ensures NoEmptyPlates(Initial(rows, rule))
  {
    RowBoundsToUnits(rows);
    PackNoEmpty(Start, Units(rows), rule);
  }

  // ---------------------------------------------------------------------
  // Overlap (corrected rule)

  /** The lookup gives every unit its own footprint, and footprints are not negative. */
  ghost predicate LookupAgrees(us: seq<Unit>, dims: DimsOf) {
    forall i :: 0 <= i < |us| ==> dims(us[i].name) == Dim(us[i].w, us[i].h) && us[i].w >= 0 && us[i].h >= 0
  }

  /** Each part of the current plate is either in an earlier row, ending
      BUFFER above the cursor row, or in the cursor row, ending BUFFER left
      of the cursor and no taller than the row's shelf. */
  ghost predicate ShelfOrder(s: Cursor, dims: DimsOf) {
    forall i :: 0 <= i < |s.current| ==>
      var p := s.current[i];
      var d := dims(p.name);
      || p.y + d.h + BUFFER <= s.y
      || (p.y == s.y && p.x + d.w + BUFFER <= s.x && d.h <= s.shelf)
  }

  ghost predicate SeparatedState(s: Cursor, dims: DimsOf) {
    && s.shelf >= 0
    && (forall k :: 0 <= k < |s.done| ==> PairwiseSeparated(s.done[k], dims))
    && PairwiseSeparated(s.current, dims)
    && ShelfOrder(s, dims)
  }

  lemma ReadySeparated(s: Cursor, u: Unit, dims: DimsOf)
    requires SeparatedState(s, dims)
    ensures SeparatedState(Ready(s, u, Corrected), dims)
  {
    var w := Wrap(s, u, Corrected);
    assert SeparatedState(w, dims) by {
      if s.x + u.w + BUFFER > PLATE_SIZE {
        forall i | 0 <= i < |w.current|
          ensures s.current[i].y + dims(s.current[i].name).h + BUFFER <= w.y
        {
        }
      }
    }
    var o := Overflow(w, u, Corrected);
    assert SeparatedState(o, dims);
  }

  lemma PutSeparated(s: Cursor, u: Unit, dims: DimsOf)
    requires SeparatedState(s, dims)
    requires dims(u.name) == Dim(u.w, u.h) && u.w >= 0 && u.h >= 0
    ensures SeparatedState(Put(s, u), dims)
  {
    var q := Part(u.name, u.time, s.x, s.y);
    forall i | 0 <= i < |s.current|
      ensures Clear(q, s.current[i], dims)
    {
    }
    assert FitsOn(s.current, q, dims);
    PairwiseSnoc(s.current, q, dims);
    var r := Put(s, u);
    assert r.current == s.current + [q];
    forall i | 0 <= i < |r.current|
      ensures var p := r.current[i];
              var d := dims(p.name);
              || p.y + d.h + BUFFER <= r.y
              || (p.y == r.y && p.x + d.w + BUFFER <= r.x && d.h <= r.shelf)
    {
      if i < |s.current| {
        assert r.current[i] == s.current[i];
      }
    }
  }

  lemma {:induction false} PackSeparated(s: Cursor, us: seq<Unit>, dims: DimsOf)
    requires SeparatedState(s, dims)
    requires LookupAgrees(us, dims)
    ensures SeparatedState(PackUnits(s, us, Corrected), dims)
    decreases |us|
  {
    if |us| > 0 {
      ReadySeparated(s, us[0], dims);
      PutSeparated(Ready(s, us[0], Corrected), us[0], dims);
      assert LookupAgrees(us[1..], dims) by {
        forall i | 0 <= i < |us| - 1
          ensures dims(us[1..][i].name) == Dim(us[1..][i].w, us[1..][i].h)
        {
          assert us[1..][i] == us[i + 1];
        }
      }
      PackSeparated(PlaceUnit(s, us[0], Corrected), us[1..], dims);
    }
  }

  /** The lookup gives every row its own footprint, and dimensions are not negative. */
  ghost predicate RowsAgree(rows: seq<Row>, dims: DimsOf) {
    forall i :: 0 <= i < |rows| ==>
      dims(rows[i].name) == Footprint(rows[i]) && rows[i].first >= 0 && rows[i].second >= 0
  }

  /** With the corrected rule, every plate of the starting solution keeps to
      one time window and no two of its parts overlap, even with their
      BUFFER margins. */
  lemma CorrectedInitialFeasible(rows: seq<Row>, dims: DimsOf)
    requires RowsAgree(rows, dims)
    ensures Feasible(Initial(rows, Corrected), dims)
  {
    UnitsFromRows(rows);
    assert LookupAgrees(Units(rows), dims) by {
      forall i | 0 <= i < |Units(rows)|
        ensures dims(Units(rows)[i].name) == Dim(Units(rows)[i].w, Units(rows)[i].h)
        ensures Units(rows)[i].w >= 0 && Units(rows)[i].h >= 0
      {
        assert Units(rows)[i] in Units(rows);
        var r :| r in rows && Units(rows)[i] == UnitOf(r);
        var k :| 0 <= k < |rows| && rows[k] == r;
      }
    }
    PackSeparated(Start, Units(rows), dims);
    InitialHomogeneous(rows, Corrected);
    var final := PackUnits(Start, Units(rows), Corrected);
    assert Initial(rows, Corrected) == Finish(final);
  }

  // ---------------------------------------------------------------------
  // Single time window

  /** Whether the time-window break of step 3 fires for unit u from state s. */
  predicate TimeBreakFires(s: Cursor, u: Unit, rule: Packing) {
    Breaks(Overflow(Wrap(s, u, rule), u, rule), u)
  }

  predicate InBucket(ps: seq<Part>, b: Bucket) {
    forall i :: 0 <= i < |ps| ==> BucketOf(ps[i].time) == b
  }

  lemma {:induction false} PackInBucket(s: Cursor, us: seq<Unit>, b: Bucket, rule: Packing)
    requires InBucket(s.current, b)
    requires forall i :: 0 <= i < |us| ==> BucketOf(us[i].time) == b
    ensures InBucket(PackUnits(s, us, rule).current, b)
    decreases |us|
  {
    if |us| > 0 {
      PackInBucket(PlaceUnit(s, us[0], rule), us[1..], b, rule);
    }
  }

  /** On units of one time window the time-window break never fires, so a
      plate is only closed by a vertical overflow. */
  lemma SingleWindowNeverBreaks(us: seq<Unit>, b: Bucket, rule: Packing)
    requires forall i :: 0 <= i < |us| ==> BucketOf(us[i].time) == b
    ensures forall k :: 0 <= k < |us| ==> !TimeBreakFires(PackUnits(Start, us[..k], rule), us[k], rule)
  {
    forall k | 0 <= k < |us|
      ensures !TimeBreakFires(PackUnits(Start, us[..k], rule), us[k], rule)
    {
      PackInBucket(Start, us[..k], b, rule);
    }
  }

  // ---------------------------------------------------------------------
  // Placement order

  /** The three ways a unit is placed: next along the row, at the start of a
      new row, or at the top-left corner of a fresh plate. */
  lemma PlacementSteps(s: Cursor, u: Unit, rule: Packing)
    ensures PlaceUnit(s, u, rule).current == Ready(s, u, rule).current + [Placed(s, u, rule)]
    ensures PlaceUnit(s, u, rule).x == Placed(s, u, rule).x + u.w + SEPARATION
    ensures PlaceUnit(s, u, rule).y == Placed(s, u, rule).y
    ensures s.x + u.w + BUFFER <= PLATE_SIZE && s.y + u.h + BUFFER <= PLATE_SIZE && !Breaks(s, u) ==>
              PlaceUnit(s, u, rule) == s.(current := s.current + [Part(u.name, u.time, s.x, s.y)],
                                          x := s.x + u.w + SEPARATION,
                                          shelf := Max(s.shelf, u.h))
    ensures var y' := s.y + RowAdvance(s, u, rule) + SEPARATION;
            s.x + u.w + BUFFER > PLATE_SIZE && y' + u.h + BUFFER <= PLATE_SIZE && !Breaks(s, u) ==>
              PlaceUnit(s, u, rule) == Cursor(s.done, s.current + [Part(u.name, u.time, BUFFER, y')],
                                              BUFFER + u.w + SEPARATION, y', Max(0, u.h))
    ensures var w := Wrap(s, u, rule);
            w.y + u.h + BUFFER > PLATE_SIZE || Breaks(Overflow(w, u, rule), u) ==>
              PlaceUnit(s, u, rule).current == [Part(u.name, u.time, BUFFER, BUFFER)]
  {
  }

  // ---------------------------------------------------------------------
  // Concrete scenarios

  lemma UnitsOfOne(r: Row)
    ensures Units([r]) == Copies(UnitOf(r), r.quantity)
  {
    assert [r][1..] == [];
  }

  lemma UnitsOfTwo(r1: Row, r2: Row)
    ensures Units([r1, r2]) == Copies(UnitOf(r1), r1.quantity) + Copies(UnitOf(r2), r2.quantity)
  {
    assert [r1, r2][1..] == [r2];
    UnitsOfOne(r2);
  }

  /** Two rows of quantity one give one unit each. */
  lemma UnitsOfSingles(r1: Row, r2: Row)
    requires r1.quantity == 1 && r2.quantity == 1
    ensures Units([r1, r2]) == [UnitOf(r1), UnitOf(r2)]
  {
    UnitsOfTwo(r1, r2);
    assert Copies(UnitOf(r1), 1) == [UnitOf(r1)];
    assert Copies(UnitOf(r2), 1) == [UnitOf(r2)];
  }

  /** The two-row packing, stated for the two units. */
  lemma InitialOfSingles(r1: Row, r2: Row, rule: Packing)
    requires r1.quantity == 1 && r2.quantity == 1
    ensures Initial([r1, r2], rule) == Finish(PlaceUnit(PlaceUnit(Start, UnitOf(r1), rule), UnitOf(r2), rule))
  {
    UnitsOfSingles(r1, r2);
    PackTwo(Start, UnitOf(r1), UnitOf(r2), rule);
  }

  lemma PackCons(s: Cursor, u: Unit, us: seq<Unit>, rule: Packing)
    ensures PackUnits(s, [u] + us, rule) == PackUnits(PlaceUnit(s, u, rule), us, rule)
  {
    assert ([u] + us)[1..] == us;
  }

  lemma PackOne(s: Cursor, u: Unit, rule: Packing)
    ensures PackUnits(s, [u], rule) == PlaceUnit(s, u, rule)
  {
    assert [u][1..] == [];
  }

  const MORNING_8: Stamp := Stamp("2024-01-01", 8 * 3600)
  const AFTERNOON_14: Stamp := Stamp("2024-01-01", 14 * 3600)

  /** Two units of a 100x100x10 item share one plate at (5,5) and (115,5). */
  lemma TwoUnitsOnOneRow(rule: Packing)
    ensures Initial([Row("A", 100, 100, 10, 2, MORNING_8)], rule)
            == [[Part("A", MORNING_8, 5, 5), Part("A", MORNING_8, 115, 5)]]
  {
    var u := Unit("A", MORNING_8, 100, 100);
    UnitsOfOne(Row("A", 100, 100, 10, 2, MORNING_8));
    assert Copies(u, 2) == [u, u];
    PackTwo(Start, u, u, rule);
    var p1 := Part("A", MORNING_8, 5, 5);
    var s1 := PlaceUnit(Start, u, rule);
    assert s1 == Cursor([], [p1], 115, 5, 100) by {
      assert Ready(Start, u, rule) == Start;
    }
    assert PlaceUnit(s1, u, rule) == Cursor([], [p1, Part("A", MORNING_8, 115, 5)], 225, 5, 100) by {
      assert Ready(s1, u, rule) == s1;
    }
  }

  lemma PackTwo(s: Cursor, a: Unit, b: Unit, rule: Packing)
    ensures PackUnits(s, [a, b], rule) == PlaceUnit(PlaceUnit(s, a, rule), b, rule)
  {
    PackCons(s, a, [b], rule);
    PackOne(PlaceUnit(s, a, rule), b, rule);
    assert [a, b] == [a] + [b];
  }

  /** The third 200x200 unit no longer fits on the row and starts the next
      row at x = 5, 200 + SEPARATION lower, on the same plate. */
  lemma WrapToNextRow(rule: Packing)
    ensures Initial([Row("B", 200, 200, 10, 3, MORNING_8)], rule)
            == [[Part("B", MORNING_8, 5, 5), Part("B", MORNING_8, 215, 5), Part("B", MORNING_8, 5, 215)]]
  {
    var row := Row("B", 200, 200, 10, 3, MORNING_8);
    var u := Unit("B", MORNING_8, 200, 200);
    UnitsOfOne(row);
    assert Copies(u, 3) == [u, u, u];
    PackThree(Start, u, rule);
    WrapSteps(u, rule);
  }

  lemma PackThree(s: Cursor, u: Unit, rule: Packing)
    ensures PackUnits(s, [u, u, u], rule) == PlaceUnit(PlaceUnit(PlaceUnit(s, u, rule), u, rule), u, rule)
  {
    PackCons(s, u, [u, u], rule);
    PackCons(PlaceUnit(s, u, rule), u, [u], rule);
    PackOne(PlaceUnit(PlaceUnit(s, u, rule), u, rule), u, rule);
    assert [u, u, u] == [u] + [u, u];
    assert [u, u] == [u] + [u];
  }

  /** The three placements of the 200x200 unit, one by one. */
  lemma WrapSteps(u: Unit, rule: Packing)
    requires u == Unit("B", MORNING_8, 200, 200)
    ensures PlaceUnit(PlaceUnit(PlaceUnit(Start, u, rule), u, rule), u, rule)
            == Cursor([], [Part("B", MORNING_8, 5, 5), Part("B", MORNING_8, 215, 5), Part("B", MORNING_8, 5, 215)], 215, 215, 200)
  {
    var p1 := Part("B", MORNING_8, 5, 5);
    var p2 := Part("B", MORNING_8, 215, 5);
    var p3 := Part("B", MORNING_8, 5, 215);
    var s1 := PlaceUnit(Start, u, rule);
    assert s1 == Cursor([], [p1], 215, 5, 200) by {
      assert Ready(Start, u, rule) == Start;
    }
    var s2 := PlaceUnit(s1, u, rule);
    assert s2 == Cursor([], [p1, p2], 425, 5, 200) by {
      assert Ready(s1, u, rule) == s1;
    }
    assert PlaceUnit(s2, u, rule) == Cursor([], [p1, p2, p3], 215, 215, 200) by {
      assert Wrap(s2, u, rule) == Cursor([], [p1, p2], 5, 215, 0);
      assert Ready(s2, u, rule) == Cursor([], [p1, p2], 5, 215, 0);
    }
  }

  /** Orders from 08:00 and 14:00 never share a plate, though both would fit. */
  lemma WindowsSplitPlates(rule: Packing)
    ensures Initial([Row("C", 50, 50, 10, 1, MORNING_8), Row("D", 50, 50, 10, 1, AFTERNOON_14)], rule)
            == [[Part("C", MORNING_8, 5, 5)], [Part("D", AFTERNOON_14, 5, 5)]]
  {
    var r1 := Row("C", 50, 50, 10, 1, MORNING_8);
    var r2 := Row("D", 50, 50, 10, 1, AFTERNOON_14);
    InitialOfSingles(r1, r2, rule);
    SplitSteps(UnitOf(r1), UnitOf(r2), rule);
  }

  /** The placements of the 08:00 and the 14:00 unit. */
  lemma SplitSteps(c: Unit, d: Unit, rule: Packing)
    requires c == Unit("C", MORNING_8, 50, 50) && d == Unit("D", AFTERNOON_14, 50, 50)
    ensures PlaceUnit(PlaceUnit(Start, c, rule), d, rule)
            == Cursor([[Part("C", MORNING_8, 5, 5)]], [Part("D", AFTERNOON_14, 5, 5)], 65, 5, 50)
  {
    var pc := Part("C", MORNING_8, 5, 5);
    var s1 := PlaceUnit(Start, c, rule);
    assert s1 == Cursor([], [pc], 65, 5, 50) by {
      assert Ready(Start, c, rule) == Start;
    }
    assert Ready(s1, d, rule) == Cursor([[pc]], [], BUFFER, BUFFER, 0) by {
      assert Breaks(s1, d);
    }
  }

  // ---------------------------------------------------------------------
  // The two defects of the source's rule

  /** Source rule: a 300x400 part followed by a 200x200 part.  The second
      part wraps and moves down by its own height only, to y = 215, which is
      inside the first part's extent (y from 5 to 405): the two overlap on
      the same plate.  The corrected rule moves the second part to a new
      plate instead. */
  lemma AsWrittenOverlaps(dims: DimsOf)
    requires dims("E") == Dim(300, 400) && dims("F") == Dim(200, 200)
    ensures var rows := [Row("E", 300, 400, 10, 1, MORNING_8), Row("F", 200, 200, 10, 1, MORNING_8)];
            && Initial(rows, AsWritten) == [[Part("E", MORNING_8, 5, 5), Part("F", MORNING_8, 5, 215)]]
            && !PairwiseSeparated(Initial(rows, AsWritten)[0], dims)
            && Initial(rows, Corrected) == [[Part("E", MORNING_8, 5, 5)], [Part("F", MORNING_8, 5, 5)]]
  {
    var r1 := Row("E", 300, 400, 10, 1, MORNING_8);
    var r2 := Row("F", 200, 200, 10, 1, MORNING_8);
    InitialOfSingles(r1, r2, AsWritten);
    InitialOfSingles(r1, r2, Corrected);
    OverlapSteps(UnitOf(r1), UnitOf(r2));
    var plate := [Part("E", MORNING_8, 5, 5), Part("F", MORNING_8, 5, 215)];
    assert !Clear(plate[1], plate[0], dims);
  }

  /** The placements of the 300x400 and 200x200 units under both rules. */
  lemma OverlapSteps(e: Unit, f: Unit)
    requires e == Unit("E", MORNING_8, 300, 400) && f == Unit("F", MORNING_8, 200, 200)
    ensures PlaceUnit(PlaceUnit(Start, e, AsWritten), f, AsWritten)
            == Cursor([], [Part("E", MORNING_8, 5, 5), Part("F", MORNING_8, 5, 215)], 215, 215, 200)
    ensures PlaceUnit(PlaceUnit(Start, e, Corrected), f, Corrected)
            == Cursor([[Part("E", MORNING_8, 5, 5)]], [Part("F", MORNING_8, 5, 5)], 215, 5, 200)
  {
    var pe := Part("E", MORNING_8, 5, 5);
    var s1 := PlaceUnit(Start, e, AsWritten);
    assert s1 == Cursor([], [pe], 315, 5, 400) by {
      assert Ready(Start, e, AsWritten) == Start;
    }
    assert PlaceUnit(s1, f, AsWritten) == Cursor([], [pe, Part("F", MORNING_8, 5, 215)], 215, 215, 200) by {
      assert Wrap(s1, f, AsWritten) == Cursor([], [pe], 5, 215, 0);
      assert Ready(s1, f, AsWritten) == Cursor([], [pe], 5, 215, 0);
    }
    var c1 := PlaceUnit(Start, e, Corrected);
    assert c1 == Cursor([], [pe], 315, 5, 400) by {
      assert Ready(Start, e, Corrected) == Start;
    }
    assert PlaceUnit(c1, f, Corrected) == Cursor([[pe]], [Part("F", MORNING_8, 5, 5)], 215, 5, 200) by {
      assert Wrap(c1, f, Corrected) == Cursor([], [pe], 5, 415, 0);
      assert Ready(c1, f, Corrected) == Cursor([[pe]], [], BUFFER, BUFFER, 0);
    }
  }

  /** Source rule: a first unit taller than PLATE_SIZE - 2*BUFFER triggers a
      vertical overflow on the still empty first plate, which is appended as
      an empty plate.  The corrected rule does not append it. */
  lemma AsWrittenEmptyPlate()
    ensures Initial([Row("G", 100, 495, 10, 1, MORNING_8)], AsWritten) == [[], [Part("G", MORNING_8, 5, 5)]]
    ensures Initial([Row("G", 100, 495, 10, 1, MORNING_8)], Corrected) == [[Part("G", MORNING_8, 5, 5)]]
  {
    var g := Unit("G", MORNING_8, 100, 495);
    UnitsOfOne(Row("G", 100, 495, 10, 1, MORNING_8));
    assert Copies(g, 1) == [g];
    PackOne(Start, g, AsWritten);
    PackOne(Start, g, Corrected);
    EmptyPlateSteps(g);
  }

  /** The placement of the 100x495 unit under both rules. */
  lemma EmptyPlateSteps(g: Unit)
    requires g == Unit("G", MORNING_8, 100, 495)
    ensures PlaceUnit(Start, g, AsWritten) == Cursor([[]], [Part("G", MORNING_8, 5, 5)], 115, 5, 495)
    ensures PlaceUnit(Start, g, Corrected) == Cursor([], [Part("G", MORNING_8, 5, 5)], 115, 5, 495)
  {
    assert Ready(Start, g, AsWritten) == Cursor([[]], [], BUFFER, BUFFER, 0) by {
      assert Wrap(Start, g, AsWritten) == Start;
    }
    assert Ready(Start, g, Corrected) == Cursor([], [], BUFFER, BUFFER, 0) by {
      assert Wrap(Start, g, Corrected) == Start;
    }
  }

  // ---------------------------------------------------------------------
  // The nested loops of the source

  lemma PackOneMore(done: seq<Unit>, u: Unit, n: nat, rule: Packing)
    ensures PackUnits(Start, done + Copies(u, n + 1), rule) == PlaceUnit(PackUnits(Start, done + Copies(u, n), rule), u, rule)
  {
    assert Copies(u, n + 1) == Copies(u, n) + [u];
    assert done + Copies(u, n + 1) == (done + Copies(u, n)) + [u];
    PackUnitsSnoc(Start, done + Copies(u, n), u, rule);
  }

  /** One pass of the source's inner loop body: wrap, overflow, time
      break, place, advance. */
  method PlaceOneUnit(plates: Solution, current: Plate, x: int, y: int, shelf: int, row: Row, rule: Packing)
    returns (plates': Solution, current': Plate, x': int, y': int, shelf': int)
    ensures Cursor(plates', current', x', y', shelf') == PlaceUnit(Cursor(plates, current, x, y, shelf), UnitOf(row), rule)
  {
    plates', current', x', y', shelf' := plates, current, x, y, shelf;
    var width, height := Footprint(row).w, Footprint(row).h;
    if x' + width + BUFFER > PLATE_SIZE {
      x' := BUFFER;
      y' := y' + (if rule == AsWritten then height else shelf') + SEPARATION;
      shelf' := 0;
    }
    if y' + height + BUFFER > PLATE_SIZE {
      if rule == AsWritten || |current'| > 0 {
        plates' := plates' + [current'];
      }
      current' := [];
      x', y', shelf' := BUFFER, BUFFER, 0;
    }
    if |current'| > 0 && !IsSameTimeRange(current'[0].time, row.time) {
      plates' := plates' + [current'];
      current' := [];
      x', y', shelf' := BUFFER, BUFFER, 0;
    }
    current' := current' + [Part(row.name, row.time, x', y')];
    x' := x' + width + SEPARATION;
    shelf' := Max(shelf', height);
  }

  /** The source's inner loop: one placement per unit of the row's quantity. */
  method PlaceRow(plates: Solution, current: Plate, x: int, y: int, shelf: int, row: Row, rule: Packing,
                  ghost done: seq<Unit>)
    returns (plates': Solution, current': Plate, x': int, y': int, shelf': int)
    requires Cursor(plates, current, x, y, shelf) == PackUnits(Start, done, rule)
    ensures Cursor(plates', current', x', y', shelf')
            == PackUnits(Start, done + Copies(UnitOf(row), row.quantity), rule)
  {
    plates', current', x', y', shelf' := plates, current, x, y, shelf;
    var n := 0;
    assert done + Copies(UnitOf(row), 0) == done;
    while n < row.quantity
      invariant 0 <= n <= Max(row.quantity, 0)
      invariant Cursor(plates', current', x', y', shelf') == PackUnits(Start, done + Copies(UnitOf(row), n), rule)
    {
      PackOneMore(done, UnitOf(row), n, rule);
      plates', current', x', y', shelf' := PlaceOneUnit(plates', current', x', y', shelf', row, rule);
      n := n + 1;
    }
    assert Copies(UnitOf(row), n) == Copies(UnitOf(row), row.quantity);
  }

  lemma UnitsPrefixSnoc(rows: seq<Row>, i: nat)
    requires i < |rows|
    ensures Units(rows[..i + 1]) == Units(rows[..i]) + Copies(UnitOf(rows[i]), rows[i].quantity)
  {
    assert rows[..i + 1] == rows[..i] + [rows[i]];
    UnitsSnoc(rows[..i], rows[i]);
  }

  /** The source's loop over the rows and over each row's quantity; it
      computes the same solution as `Initial`. */
  method GenerateInitialSolution(rows: seq<Row>, rule: Packing) returns (plates: Solution)
    ensures plates == Initial(rows, rule)
  {
    plates := [];
    var current: Plate := [];
    var x, y, shelf := BUFFER, BUFFER, 0;
    var i := 0;
    while i < |rows|
      invariant 0 <= i <= |rows|
      invariant Cursor(plates, current, x, y, shelf) == PackUnits(Start, Units(rows[..i]), rule)
    {
      plates, current, x, y, shelf := PlaceRow(plates, current, x, y, shelf, rows[i], rule, Units(rows[..i]));
      UnitsPrefixSnoc(rows, i);
      i := i + 1;
    }
    assert rows[..i] == rows;
    if |current| > 0 {
      plates := plates + [current];
    }
  }
}

=== FILE: genetic.dfy ===
/** The genetic optimiser: plate-level crossover, part-swapping mutation,
    truncation selection, and the split of the orders into the morning and
    afternoon windows, each evolved on its own.  Every random choice is a
    parameter: raw numbers reduced to the source's ranges, and the mutation
    coin (`uniform(0, 1) < MUTATION_RATE`) as a boolean. */
module Genetic {
  import opened TimeRange
  import opened Layout
  import opened Geometry
  import opened Scoring
  import opened Baseline
  import opened Ranking

  const POPULATION_SIZE: nat := 50
  const GENERATIONS: nat := 100
  /** The fitter half kept by each generation. */
  const SURVIVORS: nat := POPULATION_SIZE / 2
  /** Parents are drawn from the first quarter of the population. */
  const PARENT_POOL: nat := POPULATION_SIZE / 4

  /** Every part of every plate lies in window b. */
  predicate AllIn(sol: Solution, b: Bucket) {
    forall k :: 0 <= k < |sol| ==> InBucket(sol[k], b)
  }

  // ---------------------------------------------------------------------
  // Crossover

  /** `crossover`: the first `split` plates of parent1 followed by the plates
      of parent2 from position `split` on, with Python's clamped slices.  The
      split is k when parent1 has more than one plate, and 1 otherwise. */
  function Crossover(p1: Solution, p2: Solution, k: nat): (child: Solution)
    requires |p1| > 1 ==> 1 <= k <= |p1| - 1
    ensures |child| == if |p1| > 1 then Max(|p2|, k) else if |p1| == 1 then Max(|p2|, 1) else Max(|p2| - 1, 0)
    ensures |p1| > 1 ==> (|child| == |p1| <==> |p2| == |p1|)
    ensures |p1| == 1 ==> (|child| == 1 <==> |p2| <= 1)
    ensures |p1| > 1 ==> forall i :: 0 <= i < |child| ==> child[i] == if i < k then p1[i] else p2[i]
    ensures |p1| == 1 ==> child[0] == p1[0] && forall i :: 1 <= i < |child| ==> child[i] == p2[i]
    ensures |p1| == 0 ==> forall i :: 0 <= i < |child| ==> child[i] == p2[i + 1]
    ensures forall i :: 0 <= i < |child| ==> child[i] in p1 || child[i] in p2
  {
    var split := if |p1| > 1 then k else 1;
    p1[..Min(split, |p1|)] + p2[Min(split, |p2|)..]
  }

  /** Two parents of one shape give a child of that shape. */
  lemma CrossoverKeepsShape(p1: Solution, p2: Solution, k: nat, s: Solution)
    requires |p1| > 1 ==> 1 <= k <= |p1| - 1
    requires SameShape(p1, s) && SameShape(p2, s)
    ensures SameShape(Crossover(p1, p2, k), s)
  {
    var child := Crossover(p1, p2, k);
    assert |child| == |s|;
    forall i | 0 <= i < |child|
      ensures |child[i]| == |s[i]|
    {
    }
  }

  /** A parent crossed with itself is returned unchanged. */
  lemma CrossoverOfTwins(p: Solution, k: nat)
    requires |p| > 1 ==> 1 <= k <= |p| - 1
    ensures Crossover(p, p, k) == p
  {
  }

  /** The child's plates all come from its parents, so it stays within a window. */
  lemma CrossoverKeepsBucket(p1: Solution, p2: Solution, k: nat, b: Bucket)
    requires |p1| > 1 ==> 1 <= k <= |p1| - 1
    requires AllIn(p1, b) && AllIn(p2, b)
    ensures AllIn(Crossover(p1, p2, k), b)
  {
    var child: Solution := Crossover(p1, p2, k);
    forall i | 0 <= i < |child|
      ensures InBucket(child[i], b)
    {
      if child[i] in p1 {
        var j :| 0 <= j < |p1| && p1[j] == child[i];
      } else {
        var j :| 0 <= j < |p2| && p2[j] == child[i];
      }
    }
  }

  /** Parents of different lengths give a child whose length is not parent1's. */
  lemma CrossoverLengthDiffers()
    ensures |Crossover([[], []], [[], [], []], 1)| == 3
  {
  }

  // ---------------------------------------------------------------------
  // Mutation

  /** Two distinct plates and a position on each. */
  datatype Exchange = Exchange(plate1: nat, plate2: nat, pos1: nat, pos2: nat)

  predicate ValidExchange(sol: Solution, e: Exchange) {
    && e.plate1 < |sol| && e.plate2 < |sol| && e.plate1 != e.plate2
    && (|sol[e.plate1]| > 0 && |sol[e.plate2]| > 0 ==>
          e.pos1 < |sol[e.plate1]| && e.pos2 < |sol[e.plate2]|)
  }

  lemma MultisetCancel<T>(x: multiset<T>, y: multiset<T>, z: multiset<T>)
    requires x + z == y + z
    ensures x == y
  {
    forall o
      ensures x[o] == y[o]
    {
      assert (x + z)[o] == (y + z)[o];
    }
  }

  /** The body of one mutation: swap one part of each of two plates, when
      neither plate is empty. */
  function ExchangeParts(sol: Solution, e: Exchange): (r: Solution)
    requires ValidExchange(sol, e)
    ensures SameShape(r, sol)
    ensures |sol[e.plate1]| == 0 || |sol[e.plate2]| == 0 ==> r == sol
    ensures |sol[e.plate1]| > 0 && |sol[e.plate2]| > 0 ==>
              r[e.plate1][e.pos1] == sol[e.plate2][e.pos2] && r[e.plate2][e.pos2] == sol[e.plate1][e.pos1]
    ensures forall k, i ::
              (0 <= k < |sol| && 0 <= i < |sol[k]| && !(k == e.plate1 && i == e.pos1) && !(k == e.plate2 && i == e.pos2))
              ==> r[k][i] == sol[k][i]
  {
    if |sol[e.plate1]| == 0 || |sol[e.plate2]| == 0 then
      sol
    else
      var a := sol[e.plate1][e.pos1];
      var b := sol[e.plate2][e.pos2];
      sol[e.plate1 := sol[e.plate1][e.pos1 := b]][e.plate2 := sol[e.plate2][e.pos2 := a]]
  }

  lemma UpdateMultiset<T>(s: seq<T>, i: nat, x: T)
    requires i < |s|
    ensures multiset(s[i := x]) + multiset{s[i]} == multiset(s) + multiset{x}
  {
  }

  /** Replacing plate k by a plate that loses one part and gains another
      does the same to the whole solution. */
  lemma FlattenTrade(sol: Solution, k: nat, a: Plate, lost: Part, gained: Part)
    requires k < |sol|
    requires multiset(a) + multiset{lost} == multiset(sol[k]) + multiset{gained}
    ensures multiset(Flatten(sol[k := a])) + multiset{lost} == multiset(Flatten(sol)) + multiset{gained}
  {
    FlattenUpdate(sol, k, a);
    var left, right := multiset(Flatten(sol[..k])), multiset(Flatten(sol[k + 1..]));
    forall o
      ensures (multiset(Flatten(sol[k := a])) + multiset{lost})[o] == (multiset(Flatten(sol)) + multiset{gained})[o]
    {
      assert (multiset(a) + multiset{lost})[o] == (multiset(sol[k]) + multiset{gained})[o];
    }
  }

  /** A mutation moves parts between plates but neither adds nor drops one. */
  lemma ExchangeKeepsParts(sol: Solution, e: Exchange)
    requires ValidExchange(sol, e)
    ensures multiset(Flatten(ExchangeParts(sol, e))) == multiset(Flatten(sol))
  {
    if |sol[e.plate1]| > 0 && |sol[e.plate2]| > 0 {
      var a := sol[e.plate1][e.pos1];
      var b := sol[e.plate2][e.pos2];
      var plate1 := sol[e.plate1][e.pos1 := b];
      var plate2 := sol[e.plate2][e.pos2 := a];
      var s1 := sol[e.plate1 := plate1];
      UpdateMultiset(sol[e.plate1], e.pos1, b);
      FlattenTrade(sol, e.plate1, plate1, a, b);
      assert s1[e.plate2] == sol[e.plate2];
      UpdateMultiset(sol[e.plate2], e.pos2, a);
      FlattenTrade(s1, e.plate2, plate2, b, a);
      var x0, x1, x2 := multiset(Flatten(sol)), multiset(Flatten(s1)), multiset(Flatten(s1[e.plate2 := plate2]));
      assert x1 + multiset{a} == x0 + multiset{b};
      assert x2 + multiset{b} == x1 + multiset{a};
      MultisetCancel(x2, x0, multiset{b});
    }
  }

  /** Swapping parts between plates of one window keeps every plate in it. */
  lemma ExchangeKeepsBucket(sol: Solution, e: Exchange, b: Bucket)
    requires ValidExchange(sol, e)
    requires AllIn(sol, b)
    ensures AllIn(ExchangeParts(sol, e), b)
  {
    var r: Solution := ExchangeParts(sol, e);
    forall k, i | 0 <= k < |r| && 0 <= i < |r[k]|
      ensures BucketOf(r[k][i].time) == b
    {
      assert InBucket(sol[k], b);
      if k == e.plate1 && i == e.pos1 && |sol[e.plate2]| > 0 {
        assert InBucket(sol[e.plate2], b);
      } else if k == e.plate2 && i == e.pos2 && |sol[e.plate1]| > 0 {
        assert InBucket(sol[e.plate1], b);
      }
    }
  }

  /** The random numbers of one pass of the mutation loop. */
  datatype MutationDraw = MutationDraw(coin: bool, plate1: nat, plate2: nat, pos1: nat, pos2: nat)

  const NO_MUTATION: MutationDraw := MutationDraw(false, 0, 0, 0, 0)

  /** `random.sample(range(n), 2)` and the two `randint` positions. */
  function ResolveExchange(sol: Solution, m: MutationDraw): (e: Exchange)
    requires |sol| > 1
    ensures ValidExchange(sol, e)
  {
    var p1 := Reduce(m.plate1, |sol|);
    var p2 := SkipOver(Reduce(m.plate2, |sol| - 1), p1);
    Exchange(p1, p2, Reduce(m.pos1, |sol[p1]|), Reduce(m.pos2, |sol[p2]|))
  }

  /** Every valid exchange is reached from some raw numbers. */
  lemma ResolveReachesEveryExchange(sol: Solution, e: Exchange)
    requires |sol| > 1 && ValidExchange(sol, e)
    ensures var m := MutationDraw(true, e.plate1, if e.plate2 < e.plate1 then e.plate2 else e.plate2 - 1, e.pos1, e.pos2);
            ExchangeParts(sol, ResolveExchange(sol, m)) == ExchangeParts(sol, e)
  {
  }

  /** One pass of the loop: mutate only when the coin falls under the rate
      and there are two plates to choose. */
  function MutateOnce(sol: Solution, m: MutationDraw): (r: Solution)
    ensures SameShape(r, sol)
    ensures multiset(Flatten(r)) == multiset(Flatten(sol))
    ensures !m.coin || |sol| <= 1 ==> r == sol
  {
    if m.coin && |sol| > 1 then
      ExchangeKeepsParts(sol, ResolveExchange(sol, m));
      ExchangeParts(sol, ResolveExchange(sol, m))
    else
      sol
  }

  function MutateAll(sol: Solution, ms: seq<MutationDraw>): (r: Solution)
    ensures SameShape(r, sol)
    ensures multiset(Flatten(r)) == multiset(Flatten(sol))
    decreases |ms|
  {
    if |ms| == 0 then sol else MutateAll(MutateOnce(sol, ms[0]), ms[1..])
  }

  /** `mutate`: one pass per plate of the solution. */
  function Mutate(sol: Solution, ms: seq<MutationDraw>): (r: Solution)
    requires |ms| == |sol|
    ensures SameShape(r, sol)
    ensures multiset(Flatten(r)) == multiset(Flatten(sol))
    ensures Cost(r) == Cost(sol)
    ensures (forall i :: 0 <= i < |ms| ==> !ms[i].coin) ==> r == sol
  {
    CostOfSameShape(MutateAll(sol, ms), sol);
    MutateAllWithoutCoin(sol, ms);
    MutateAll(sol, ms)
  }

  lemma {:induction false} MutateAllWithoutCoin(sol: Solution, ms: seq<MutationDraw>)
    ensures (forall i :: 0 <= i < |ms| ==> !ms[i].coin) ==> MutateAll(sol, ms) == sol
    decreases |ms|
  {
    if |ms| > 0 && forall i :: 0 <= i < |ms| ==> !ms[i].coin {
      assert !ms[0].coin;
      MutateAllWithoutCoin(sol, ms[1..]);
    }
  }

  lemma {:induction false} MutateAllKeepsBucket(sol: Solution, ms: seq<MutationDraw>, b: Bucket)
    requires AllIn(sol, b)
    ensures AllIn(MutateAll(sol, ms), b)
    decreases |ms|
  {
    if |ms| > 0 {
      if ms[0].coin && |sol| > 1 {
        ExchangeKeepsBucket(sol, ResolveExchange(sol, ms[0]), b);
      }
      MutateAllKeepsBucket(MutateOnce(sol, ms[0]), ms[1..], b);
    }
  }

  /** The mutation operator ignores geometry: it can put a part where it
      overlaps another. */
  lemma MutationIgnoresOverlap(dims: DimsOf)
    requires dims("A") == Dim(100, 100) && dims("B") == Dim(300, 300)
    ensures var sol := [[Part("A", MORNING_8, 5, 5), Part("B", MORNING_8, 115, 5)], [Part("B", MORNING_8, 5, 5)]];
            Feasible(sol, dims)
            && !Feasible(Mutate(sol, [MutationDraw(true, 0, 0, 0, 0), NO_MUTATION]), dims)
  {
    var sol := [[Part("A", MORNING_8, 5, 5), Part("B", MORNING_8, 115, 5)], [Part("B", MORNING_8, 5, 5)]];
    var r := Mutate(sol, [MutationDraw(true, 0, 0, 0, 0), NO_MUTATION]);
    assert ResolveExchange(sol, MutationDraw(true, 0, 0, 0, 0)) == Exchange(0, 1, 0, 0);
    var once := ExchangeParts(sol, Exchange(0, 1, 0, 0));
    assert once[0] == [Part("B", MORNING_8, 5, 5), Part("B", MORNING_8, 115, 5)];
    assert MutateAll(once, [NO_MUTATION]) == once by {
      assert [NO_MUTATION][1..] == [];
    }
    assert r == once;
    assert !Clear(once[0][0], once[0][1], dims);
  }

  // ---------------------------------------------------------------------
  // Ranking

  /** The least fitness in a population. */
  function MinCost(pop: seq<Solution>): int
    requires |pop| > 0
  {
    Cost(pop[FirstMin(pop, Cost)])
  }

  // ---------------------------------------------------------------------
  // Generations

  /** The random numbers for one child: the two parents (drawn with
      replacement), the split, and the mutation passes.  Missing mutation
      passes draw a coin above the rate. */
  datatype ChildDraw = ChildDraw(parent1: nat, parent2: nat, split: nat, mutation: seq<MutationDraw>)

  function Pad(ms: seq<MutationDraw>, n: nat): (r: seq<MutationDraw>)
    ensures |r| == n
    ensures forall i :: 0 <= i < n ==> r[i] == if i < |ms| then ms[i] else NO_MUTATION
  {
    if n == 0 then [] else Pad(ms, n - 1) + [if n - 1 < |ms| then ms[n - 1] else NO_MUTATION]
  }

  /** One pass of the refill loop: choose parents, cross them over, mutate
      the child.  Parents of one shape give a child of that shape. */
  function Breed(pool: seq<Solution>, c: ChildDraw): (r: Solution)
    requires |pool| > 0
    ensures var p1 := pool[Reduce(c.parent1, |pool|)];
            SameShape(p1, pool[Reduce(c.parent2, |pool|)]) ==> SameShape(r, p1)
  {
    var p1 := pool[Reduce(c.parent1, |pool|)];
    var p2 := pool[Reduce(c.parent2, |pool|)];
    var k := if |p1| > 1 then 1 + Reduce(c.split, |p1| - 1) else 0;
    var x := Crossover(p1, p2, k);
    var r := Mutate(x, Pad(c.mutation, |x|));
    assert SameShape(p1, p2) ==> SameShape(r, p1) by {
      if SameShape(p1, p2) {
        CrossoverKeepsShape(p1, p2, k, p1);
      }
    }
    r
  }

  /** A child bred from parents of one shape has that shape, and so the same
      fitness. */
  lemma BreedKeepsShape(pool: seq<Solution>, c: ChildDraw, s: Solution)
    requires |pool| > 0
    requires forall i :: 0 <= i < |pool| ==> SameShape(pool[i], s)
    ensures SameShape(Breed(pool, c), s)
    ensures Cost(Breed(pool, c)) == Cost(s)
  {
    var p1 := pool[Reduce(c.parent1, |pool|)];
    var p2 := pool[Reduce(c.parent2, |pool|)];
    var k := if |p1| > 1 then 1 + Reduce(c.split, |p1| - 1) else 0;
    CrossoverKeepsShape(p1, p2, k, s);
    CostOfSameShape(Breed(pool, c), s);
  }

  /** No mutation pass of the child draws a coin under the rate. */
  predicate NoMutation(c: ChildDraw) {
    forall i :: 0 <= i < |c.mutation| ==> !c.mutation[i].coin
  }

  /** Without a mutation coin under the rate, the child is the crossover of
      its two parents. */
  lemma BreedWithoutMutation(pool: seq<Solution>, c: ChildDraw)
    requires |pool| > 0
    requires NoMutation(c)
    ensures var p1 := pool[Reduce(c.parent1, |pool|)];
            Breed(pool, c) == Crossover(p1, pool[Reduce(c.parent2, |pool|)], if |p1| > 1 then 1 + Reduce(c.split, |p1| - 1) else 0)
  {
    var p1 := pool[Reduce(c.parent1, |pool|)];
    var p2 := pool[Reduce(c.parent2, |pool|)];
    var x := Crossover(p1, p2, if |p1| > 1 then 1 + Reduce(c.split, |p1| - 1) else 0);
    PadWithoutCoin(c.mutation, |x|);
  }

  lemma PadWithoutCoin(ms: seq<MutationDraw>, n: nat)
    requires forall i :: 0 <= i < |ms| ==> !ms[i].coin
    ensures forall i :: 0 <= i < n ==> !Pad(ms, n)[i].coin
  {
  }

  /** Without a mutation, every plate of a child is a plate of one of the
      two parents drawn from the pool. */
  lemma BreedFromPool(pool: seq<Solution>, c: ChildDraw)
    requires |pool| > 0
    requires NoMutation(c)
    ensures forall k :: 0 <= k < |Breed(pool, c)| ==>
              Breed(pool, c)[k] in pool[Reduce(c.parent1, |pool|)] || Breed(pool, c)[k] in pool[Reduce(c.parent2, |pool|)]
  {
    BreedWithoutMutation(pool, c);
  }

  lemma BreedKeepsBucket(pool: seq<Solution>, c: ChildDraw, b: Bucket)
    requires |pool| > 0
    requires forall i :: 0 <= i < |pool| ==> AllIn(pool[i], b)
    ensures AllIn(Breed(pool, c), b)
  {
    var p1 := pool[Reduce(c.parent1, |pool|)];
    var p2 := pool[Reduce(c.parent2, |pool|)];
    var k := if |p1| > 1 then 1 + Reduce(c.split, |p1| - 1) else 0;
    CrossoverKeepsBucket(p1, p2, k, b);
    var x := Crossover(p1, p2, k);
    MutateAllKeepsBucket(x, Pad(c.mutation, |x|), b);
  }

  /** The children the refill loop appends, one per draw, in draw order. */
  function Children(pool: seq<Solution>, brood: seq<ChildDraw>): (r: seq<Solution>)
    requires |pool| > 0
    ensures |r| == |brood|
    ensures forall i :: 0 <= i < |r| ==> r[i] == Breed(pool, brood[i])
  {
    seq(|brood|, i requires 0 <= i < |brood| => Breed(pool, brood[i]))
  }

  /** The refill loop over any element type: starting from `front`, append
      the element made from the next draw while fewer than `size` are held. */
  method FillUp<T, D>(front: seq<T>, draws: seq<D>, size: nat, make: D -> T) returns (pop: seq<T>)
    requires |front| <= size && |draws| == size - |front|
    ensures |pop| == size
    ensures pop[..|front|] == front
    ensures forall i :: 0 <= i < |draws| ==> pop[|front| + i] == make(draws[i])
  {
    pop := front;
    while |pop| < size
      invariant |front| <= |pop| <= size
      invariant pop[..|front|] == front
      invariant forall i :: 0 <= i < |pop| - |front| ==> pop[|front| + i] == make(draws[i])
      decreases size - |pop|
    {
      pop := pop + [make(draws[|pop| - |front|])];
    }
  }

  /** The source's refill loop: append one child of the best quarter at a
      time until the population is full again.  It yields the survivors
      followed by the children, one per draw, in draw order. */
  method Refill(survivors: seq<Solution>, brood: seq<ChildDraw>) returns (pop: seq<Solution>)
    requires |survivors| == SURVIVORS && |brood| == POPULATION_SIZE - SURVIVORS
    ensures |pop| == POPULATION_SIZE
    ensures pop[..SURVIVORS] == survivors
    ensures forall g :: 0 <= g < |brood| ==> pop[SURVIVORS + g] == Breed(survivors[..PARENT_POOL], brood[g])
    ensures pop == survivors + Children(survivors[..PARENT_POOL], brood)
  {
    var pool := survivors[..PARENT_POOL];
    pop := FillUp(survivors, brood, POPULATION_SIZE, c => Breed(pool, c));
    var children := Children(pool, brood);
    forall i | 0 <= i < |pop|
      ensures pop[i] == (survivors + children)[i]
    {
      if i < SURVIVORS {
        assert pop[i] == pop[..SURVIVORS][i];
      }
    }
  }

  /** The fitter half of the population, cheapest first. */
  function Survivors(pop: seq<Solution>): (r: seq<Solution>)
    requires |pop| == POPULATION_SIZE
    ensures |r| == SURVIVORS
    ensures SortedBy(r, Cost)
    ensures forall i :: 0 <= i < |r| ==> r[i] in pop
    ensures Cost(r[0]) == MinCost(pop)
  {
    var ranked := SortBy(pop, Cost);
    var r := ranked[..SURVIVORS];
    assert SortedBy(r, Cost) by {
      SortedPrefix(ranked, SURVIVORS, Cost);
    }
    assert forall i :: 0 <= i < |r| ==> r[i] in pop by {
      SortedMembers(pop, Cost);
      forall i | 0 <= i < |r|
        ensures r[i] in pop
      {
        assert r[i] == ranked[i];
      }
    }
    assert Cost(r[0]) == MinCost(pop) by {
      SortedHeadIsMin(pop, Cost);
      assert r[0] == ranked[0];
    }
    r
  }

  /** `kept` and `discarded` together make up `pop`, and nothing kept costs
      more than anything discarded. */
  predicate BetterHalf(kept: seq<Solution>, discarded: seq<Solution>, pop: seq<Solution>) {
    && multiset(kept) + multiset(discarded) == multiset(pop)
    && forall i, j :: 0 <= i < |kept| && 0 <= j < |discarded| ==> Cost(kept[i]) <= Cost(discarded[j])
  }

  /** The survivors are the better half of the population. */
  lemma SurvivorsAreBetterHalf(pop: seq<Solution>)
    requires |pop| == POPULATION_SIZE
    ensures exists discarded: seq<Solution> :: BetterHalf(Survivors(pop), discarded, pop)
  {
    var ranked := SortBy(pop, Cost);
    assert Survivors(pop) == ranked[..SURVIVORS];
    SplitMultiset(ranked, SURVIVORS);
    SortedPrefixFirst(ranked, SURVIVORS, Cost);
    assert BetterHalf(ranked[..SURVIVORS], ranked[SURVIVORS..], pop);
  }

  /** One iteration of the generation loop: rank, keep the better half, and
      refill with children of the best quarter. */
  function NextGeneration(pop: seq<Solution>, brood: seq<ChildDraw>): (r: seq<Solution>)
    requires |pop| == POPULATION_SIZE && |brood| == POPULATION_SIZE - SURVIVORS
    ensures |r| == POPULATION_SIZE
    ensures forall i :: 0 <= i < SURVIVORS ==> r[i] in pop
    ensures Cost(r[0]) == MinCost(pop)
    ensures MinCost(r) <= MinCost(pop)
  {
    var survivors := Survivors(pop);
    var r := survivors + Children(survivors[..PARENT_POOL], brood);
    assert r[0] == survivors[0];
    assert forall i :: 0 <= i < SURVIVORS ==> r[i] == survivors[i];
    r
  }

  /** The first SURVIVORS members of the next generation are the survivors. */
  lemma NextGenerationKeepsSurvivors(pop: seq<Solution>, brood: seq<ChildDraw>)
    requires |pop| == POPULATION_SIZE && |brood| == POPULATION_SIZE - SURVIVORS
    ensures NextGeneration(pop, brood)[..SURVIVORS] == Survivors(pop)
  {
    var survivors := Survivors(pop);
    NextGenerationSplit(pop, brood);
    assert (survivors + Children(survivors[..PARENT_POOL], brood))[..SURVIVORS] == survivors;
  }

  /** One generation as the source runs it: rank, keep the better half,
      then the refill loop.  It computes exactly NextGeneration, so every
      result about NextGeneration, Evolve and GeneticSubset is a result
      about the loop. */
  method Generation(pop: seq<Solution>, brood: seq<ChildDraw>) returns (next: seq<Solution>)
    requires |pop| == POPULATION_SIZE && |brood| == POPULATION_SIZE - SURVIVORS
    ensures next == NextGeneration(pop, brood)
  {
    var survivors := Survivors(pop);
    next := Refill(survivors, brood);
    NextGenerationSplit(pop, brood);
  }

  lemma NextGenerationSplit(pop: seq<Solution>, brood: seq<ChildDraw>)
    requires |pop| == POPULATION_SIZE && |brood| == POPULATION_SIZE - SURVIVORS
    ensures NextGeneration(pop, brood) == Survivors(pop) + Children(Survivors(pop)[..PARENT_POOL], brood)
  {
  }

  /** Child g of the next generation is bred from the PARENT_POOL fittest
      survivors: without a mutation, each of its plates is a plate of one of
      them. */
  lemma ChildFromBestQuarter(pop: seq<Solution>, brood: seq<ChildDraw>, g: nat)
    requires |pop| == POPULATION_SIZE && |brood| == POPULATION_SIZE - SURVIVORS
    requires SURVIVORS <= g < POPULATION_SIZE
    requires NoMutation(brood[g - SURVIVORS])
    ensures forall k :: 0 <= k < |NextGeneration(pop, brood)[g]| ==>
              exists q :: 0 <= q < PARENT_POOL && NextGeneration(pop, brood)[g][k] in Survivors(pop)[q]
  {
    var survivors := Survivors(pop);
    var pool := survivors[..PARENT_POOL];
    var c := brood[g - SURVIVORS];
    var child := NextGeneration(pop, brood)[g];
    NextGenerationChild(pop, brood, g);
    BreedFromPool(pool, c);
    var i := Reduce(c.parent1, |pool|);
    var j := Reduce(c.parent2, |pool|);
    assert pool[i] == survivors[i] && pool[j] == survivors[j];
    forall k | 0 <= k < |child|
      ensures exists q :: 0 <= q < PARENT_POOL && child[k] in survivors[q]
    {
      if child[k] in pool[i] {
        assert child[k] in survivors[i];
      } else {
        assert child[k] in survivors[j];
      }
    }
  }

  lemma NextGenerationChild(pop: seq<Solution>, brood: seq<ChildDraw>, g: nat)
    requires |pop| == POPULATION_SIZE && |brood| == POPULATION_SIZE - SURVIVORS
    requires SURVIVORS <= g < POPULATION_SIZE
    ensures NextGeneration(pop, brood)[g] == Breed(Survivors(pop)[..PARENT_POOL], brood[g - SURVIVORS])
  {
    var survivors := Survivors(pop);
    var children := Children(survivors[..PARENT_POOL], brood);
    NextGenerationSplit(pop, brood);
    ChildOfAppend(survivors, children, g);
  }

  lemma ChildOfAppend(a: seq<Solution>, c: seq<Solution>, g: nat)
    requires |a| <= g < |a| + |c|
    ensures (a + c)[g] == c[g - |a|]
  {
  }

  lemma ChildrenKeepShape(pool: seq<Solution>, brood: seq<ChildDraw>, s: Solution)
    requires |pool| > 0
    requires forall i :: 0 <= i < |pool| ==> SameShape(pool[i], s)
    ensures forall i :: 0 <= i < |brood| ==> SameShape(Children(pool, brood)[i], s)
  {
    forall i | 0 <= i < |brood|
      ensures SameShape(Children(pool, brood)[i], s)
    {
      BreedKeepsShape(pool, brood[i], s);
    }
  }

  lemma ChildrenKeepBucket(pool: seq<Solution>, brood: seq<ChildDraw>, b: Bucket)
    requires |pool| > 0
    requires forall i :: 0 <= i < |pool| ==> AllIn(pool[i], b)
    ensures forall i :: 0 <= i < |brood| ==> AllIn(Children(pool, brood)[i], b)
  {
    forall i | 0 <= i < |brood|
      ensures AllIn(Children(pool, brood)[i], b)
    {
      BreedKeepsBucket(pool, brood[i], b);
    }
  }

  /** Every member of the next generation has the shape every member of the
      population had. */
  lemma NextGenerationKeepsShape(pop: seq<Solution>, brood: seq<ChildDraw>, s: Solution)
    requires |pop| == POPULATION_SIZE && |brood| == POPULATION_SIZE - SURVIVORS
    requires forall i :: 0 <= i < |pop| ==> SameShape(pop[i], s)
    ensures forall i :: 0 <= i < POPULATION_SIZE ==> SameShape(NextGeneration(pop, brood)[i], s)
  {
    var survivors := Survivors(pop);
    forall i | 0 <= i < |survivors|
      ensures SameShape(survivors[i], s)
    {
      var j :| 0 <= j < |pop| && pop[j] == survivors[i];
    }
    var pool := survivors[..PARENT_POOL];
    var children := Children(pool, brood);
    ChildrenKeepShape(pool, brood, s);
    AppendSameShape(survivors, children, s);
  }

  lemma AppendSameShape(a: seq<Solution>, c: seq<Solution>, s: Solution)
    requires forall i :: 0 <= i < |a| ==> SameShape(a[i], s)
    requires forall i :: 0 <= i < |c| ==> SameShape(c[i], s)
    ensures forall i :: 0 <= i < |a + c| ==> SameShape((a + c)[i], s)
  {
    forall i | 0 <= i < |a + c|
      ensures SameShape((a + c)[i], s)
    {
      if i >= |a| {
        assert (a + c)[i] == c[i - |a|];
      }
    }
  }

  /** Every member of the next generation stays in the window every member
      of the population was in. */
  lemma NextGenerationKeepsBucket(pop: seq<Solution>, brood: seq<ChildDraw>, b: Bucket)
    requires |pop| == POPULATION_SIZE && |brood| == POPULATION_SIZE - SURVIVORS
    requires forall i :: 0 <= i < |pop| ==> AllIn(pop[i], b)
    ensures forall i :: 0 <= i < POPULATION_SIZE ==> AllIn(NextGeneration(pop, brood)[i], b)
  {
    var survivors := Survivors(pop);
    forall i | 0 <= i < |survivors|
      ensures AllIn(survivors[i], b)
    {
      var j :| 0 <= j < |pop| && pop[j] == survivors[i];
    }
    var pool := survivors[..PARENT_POOL];
    var children := Children(pool, brood);
    ChildrenKeepBucket(pool, brood, b);
    AppendAllIn(survivors, children, b);
  }

  lemma AppendAllIn(a: seq<Solution>, c: seq<Solution>, b: Bucket)
    requires forall i :: 0 <= i < |a| ==> AllIn(a[i], b)
    requires forall i :: 0 <= i < |c| ==> AllIn(c[i], b)
    ensures forall i :: 0 <= i < |a + c| ==> AllIn((a + c)[i], b)
  {
    forall i | 0 <= i < |a + c|
      ensures AllIn((a + c)[i], b)
    {
      if i >= |a| {
        assert (a + c)[i] == c[i - |a|];
      }
    }
  }

  predicate Broods(gens: seq<seq<ChildDraw>>) {
    forall g :: 0 <= g < |gens| ==> |gens[g]| == POPULATION_SIZE - SURVIVORS
  }

  /** The generation loop, one brood of child draws per generation. */
  function Evolve(pop: seq<Solution>, gens: seq<seq<ChildDraw>>): (r: seq<Solution>)
    requires |pop| == POPULATION_SIZE && Broods(gens)
    ensures |r| == POPULATION_SIZE
    ensures MinCost(r) <= MinCost(pop)
    decreases |gens|
  {
    if |gens| == 0 then pop else Evolve(NextGeneration(pop, gens[0]), gens[1..])
  }

  lemma {:induction false} EvolveKeepsShape(pop: seq<Solution>, gens: seq<seq<ChildDraw>>, s: Solution)
    requires |pop| == POPULATION_SIZE && Broods(gens)
    requires forall i :: 0 <= i < |pop| ==> SameShape(pop[i], s)
    ensures forall i :: 0 <= i < POPULATION_SIZE ==> SameShape(Evolve(pop, gens)[i], s)
    decreases |gens|
  {
    if |gens| > 0 {
      NextGenerationKeepsShape(pop, gens[0], s);
      EvolveKeepsShape(NextGeneration(pop, gens[0]), gens[1..], s);
    }
  }

  lemma {:induction false} EvolveKeepsBucket(pop: seq<Solution>, gens: seq<seq<ChildDraw>>, b: Bucket)
    requires |pop| == POPULATION_SIZE && Broods(gens)
    requires forall i :: 0 <= i < |pop| ==> AllIn(pop[i], b)
    ensures forall i :: 0 <= i < POPULATION_SIZE ==> AllIn(Evolve(pop, gens)[i], b)
    decreases |gens|
  {
    if |gens| > 0 {
      NextGenerationKeepsBucket(pop, gens[0], b);
      EvolveKeepsBucket(NextGeneration(pop, gens[0]), gens[1..], b);
    }
  }

  /** The initial population: POPULATION_SIZE copies of one solution. */
  function Population(start: Solution): (pop: seq<Solution>)
    ensures |pop| == POPULATION_SIZE
    ensures forall i :: 0 <= i < |pop| ==> pop[i] == start
  {
    seq(POPULATION_SIZE, _ => start)
  }

  /** `genetic_algorithm_for_subset`: fifty copies of the packer's solution,
      evolved for GENERATIONS generations; the fittest member is returned.
      Crossover and mutation never change how many parts each plate holds,
      and the fitness depends on nothing else, so the result always has
      exactly the packer's fitness. */
  function GeneticSubset(rows: seq<Row>, rule: Packing, gens: seq<seq<ChildDraw>>): (best: Solution)
    requires |gens| == GENERATIONS && Broods(gens)
    ensures SameShape(best, Initial(rows, rule))
    ensures Cost(best) == Cost(Initial(rows, rule))
  {
    var start := Initial(rows, rule);
    var pop := Population(start);
    var last := Evolve(pop, gens);
    EvolveKeepsShape(pop, gens, start);
    var best := last[FirstMin(last, Cost)];
    CostOfSameShape(best, start);
    best
  }

  // ---------------------------------------------------------------------
  // Time windows

  /** The rows whose order time falls in window b, in their order. */
  function RowsIn(rows: seq<Row>, b: Bucket): (r: seq<Row>)
    ensures forall i :: 0 <= i < |r| ==> BucketOf(r[i].time) == b
    ensures |r| <= |rows|
  {
    if |rows| == 0 then []
    else if BucketOf(rows[0].time) == b then [rows[0]] + RowsIn(rows[1..], b)
    else RowsIn(rows[1..], b)
  }

  /** `split_data_by_time_range`: the rows before noon, and the rows from noon on. */
  function SplitByTimeRange(rows: seq<Row>): (r: (seq<Row>, seq<Row>))
    ensures forall i :: 0 <= i < |r.0| ==> r.0[i].time.secondOfDay < NOON
    ensures forall i :: 0 <= i < |r.1| ==> r.1[i].time.secondOfDay >= NOON
    ensures multiset(r.0) + multiset(r.1) == multiset(rows)
  {
    SplitIsPartition(rows);
    (RowsIn(rows, Morning), RowsIn(rows, Afternoon))
  }

  lemma {:induction false} SplitIsPartition(rows: seq<Row>)
    ensures multiset(RowsIn(rows, Morning)) + multiset(RowsIn(rows, Afternoon)) == multiset(rows)
  {
    if |rows| > 0 {
      SplitIsPartition(rows[1..]);
      assert rows == [rows[0]] + rows[1..];
      var m, a := RowsIn(rows[1..], Morning), RowsIn(rows[1..], Afternoon);
      if BucketOf(rows[0].time) == Morning {
        assert RowsIn(rows, Morning) == [rows[0]] + m && RowsIn(rows, Afternoon) == a;
      } else {
        assert RowsIn(rows, Morning) == m && RowsIn(rows, Afternoon) == [rows[0]] + a;
      }
    }
  }

  /** Splitting keeps the order: it distributes over concatenation. */
  lemma {:induction false} RowsInAppend(a: seq<Row>, c: seq<Row>, b: Bucket)
    ensures RowsIn(a + c, b) == RowsIn(a, b) + RowsIn(c, b)
  {
    if |a| == 0 {
      assert a + c == c;
    } else {
      assert (a + c)[1..] == a[1..] + c;
      RowsInAppend(a[1..], c, b);
    }
  }

  /** A row already in window b is kept by the split and nothing else is. */
  lemma {:induction false} RowsInKeepsWindow(rows: seq<Row>, b: Bucket)
    ensures (forall i :: 0 <= i < |rows| ==> BucketOf(rows[i].time) == b) ==> RowsIn(rows, b) == rows
    ensures (forall i :: 0 <= i < |rows| ==> BucketOf(rows[i].time) != b) ==> RowsIn(rows, b) == []
  {
    if |rows| > 0 {
      RowsInKeepsWindow(rows[1..], b);
      assert rows == [rows[0]] + rows[1..];
    }
  }

  lemma PlatePartInFlatten(sol: Solution, k: nat, i: nat)
    requires k < |sol| && i < |sol[k]|
    ensures sol[k][i] in Flatten(sol)
  {
    FlattenAround(sol, k);
    assert Flatten(sol)[|Flatten(sol[..k])| + i] == sol[k][i];
  }

  /** The packer's solution for the rows of one window holds only parts of that window. */
  lemma InitialAllIn(rows: seq<Row>, rule: Packing, b: Bucket)
    requires forall i :: 0 <= i < |rows| ==> BucketOf(rows[i].time) == b
    ensures AllIn(Initial(rows, rule), b)
  {
    var sol: Solution := Initial(rows, rule);
    InitialMatchesUnits(rows, rule);
    UnitsFromRows(rows);
    var flat: seq<Part> := Flatten(sol);
    forall k, i | 0 <= k < |sol| && 0 <= i < |sol[k]|
      ensures BucketOf(sol[k][i].time) == b
    {
      PlatePartInFlatten(sol, k, i);
      var j :| 0 <= j < |flat| && flat[j] == sol[k][i];
      assert Units(rows)[j] in Units(rows);
      var r :| r in rows && Units(rows)[j] == UnitOf(r);
    }
  }

  lemma GeneticSubsetAllIn(rows: seq<Row>, rule: Packing, gens: seq<seq<ChildDraw>>, b: Bucket)
    requires |gens| == GENERATIONS && Broods(gens)
    requires forall i :: 0 <= i < |rows| ==> BucketOf(rows[i].time) == b
    ensures AllIn(GeneticSubset(rows, rule, gens), b)
  {
    var start := Initial(rows, rule);
    InitialAllIn(rows, rule, b);
    var pop := Population(start);
    EvolveKeepsBucket(pop, gens, b);
  }

  lemma {:induction false} SameShapeAppend(a: Solution, b: Solution, c: Solution, d: Solution)
    requires SameShape(a, c) && SameShape(b, d)
    ensures SameShape(a + b, c + d)
  {
    forall k | 0 <= k < |a + b|
      ensures |(a + b)[k]| == |(c + d)[k]|
    {
      if k < |a| {
        assert (a + b)[k] == a[k] && (c + d)[k] == c[k];
      } else {
        assert (a + b)[k] == b[k - |a|] && (c + d)[k] == d[k - |a|];
      }
    }
  }

  /** A plate all in one window is homogeneous. */
  lemma InBucketHomogeneous(plate: Plate, b: Bucket)
    requires InBucket(plate, b)
    ensures Homogeneous(plate)
  {
  }

  /** Joining two solutions of known shapes and windows. */
  lemma JoinSolutions(m: Solution, a: Solution, shapeM: Solution, shapeA: Solution)
    requires SameShape(m, shapeM) && SameShape(a, shapeA)
    requires AllIn(m, Morning) && AllIn(a, Afternoon)
    ensures Cost(m + a) == Cost(shapeM) + Cost(shapeA)
    ensures SameShape(m + a, shapeM + shapeA)
    ensures forall k :: 0 <= k < |m| ==> InBucket((m + a)[k], Morning)
    ensures forall k :: |m| <= k < |m + a| ==> InBucket((m + a)[k], Afternoon)
  {
    CostAdditive(m, a);
    CostOfSameShape(m, shapeM);
    CostOfSameShape(a, shapeA);
    SameShapeAppend(m, a, shapeM, shapeA);
    forall k | 0 <= k < |m|
      ensures InBucket((m + a)[k], Morning)
    {
      assert (m + a)[k] == m[k];
    }
    forall k | |m| <= k < |m + a|
      ensures InBucket((m + a)[k], Afternoon)
    {
      assert (m + a)[k] == a[k - |m|];
    }
  }

  /** Joining the two windows' results: the fitness adds up, the shape is the
      two packer solutions' shape, and no plate mixes the windows. */
  lemma JoinWindows(rows: seq<Row>, rule: Packing,
                    morningGens: seq<seq<ChildDraw>>, afternoonGens: seq<seq<ChildDraw>>)
    requires |morningGens| == GENERATIONS && Broods(morningGens)
    requires |afternoonGens| == GENERATIONS && Broods(afternoonGens)
    ensures var m := GeneticSubset(RowsIn(rows, Morning), rule, morningGens);
            var a := GeneticSubset(RowsIn(rows, Afternoon), rule, afternoonGens);
            && Cost(m + a) == Cost(Initial(RowsIn(rows, Morning), rule)) + Cost(Initial(RowsIn(rows, Afternoon), rule))
            && SameShape(m + a, Initial(RowsIn(rows, Morning), rule) + Initial(RowsIn(rows, Afternoon), rule))
            && (forall k :: 0 <= k < |m| ==> InBucket((m + a)[k], Morning))
            && (forall k :: |m| <= k < |m + a| ==> InBucket((m + a)[k], Afternoon))
  {
    var morning, afternoon := RowsIn(rows, Morning), RowsIn(rows, Afternoon);
    var m := GeneticSubset(morning, rule, morningGens);
    var a := GeneticSubset(afternoon, rule, afternoonGens);
    GeneticSubsetAllIn(morning, rule, morningGens, Morning);
    GeneticSubsetAllIn(afternoon, rule, afternoonGens, Afternoon);
    JoinSolutions(m, a, Initial(morning, rule), Initial(afternoon, rule));
  }

  /** `genetic_algorithm`: evolve the morning and the afternoon rows apart
      and concatenate the two best solutions. */
  function GeneticAlgorithm(rows: seq<Row>, rule: Packing,
                            morningGens: seq<seq<ChildDraw>>, afternoonGens: seq<seq<ChildDraw>>)
    : (r: (Solution, int))
    requires |morningGens| == GENERATIONS && Broods(morningGens)
    requires |afternoonGens| == GENERATIONS && Broods(afternoonGens)
    ensures r.1 == Cost(r.0)
    ensures r.1 == Cost(Initial(SplitByTimeRange(rows).0, rule)) + Cost(Initial(SplitByTimeRange(rows).1, rule))
    ensures SameShape(r.0, Initial(SplitByTimeRange(rows).0, rule) + Initial(SplitByTimeRange(rows).1, rule))
    ensures forall k :: 0 <= k < |r.0| ==> Homogeneous(r.0[k])
  {
    var split := SplitByTimeRange(rows);
    var m := GeneticSubset(split.0, rule, morningGens);
    var a := GeneticSubset(split.1, rule, afternoonGens);
    JoinWindows(rows, rule, morningGens, afternoonGens);
    assert forall k :: 0 <= k < |m + a| ==> Homogeneous((m + a)[k]) by {
      forall k | 0 <= k < |m + a|
        ensures Homogeneous((m + a)[k])
      {
        if k < |m| {
          InBucketHomogeneous((m + a)[k], Morning);
        } else {
          InBucketHomogeneous((m + a)[k], Afternoon);
        }
      }
    }
    (m + a, Cost(m + a))
  }

  /** Each window's part of the result holds only that window's parts. */
  lemma GeneticAlgorithmSeparatesWindows(rows: seq<Row>, rule: Packing,
                                         morningGens: seq<seq<ChildDraw>>, afternoonGens: seq<seq<ChildDraw>>)
    requires |morningGens| == GENERATIONS && Broods(morningGens)
    requires |afternoonGens| == GENERATIONS && Broods(afternoonGens)
    ensures var sol := GeneticAlgorithm(rows, rule, morningGens, afternoonGens).0;
            var cut := |Initial(SplitByTimeRange(rows).0, rule)|;
            && cut <= |sol|
            && (forall k :: 0 <= k < cut ==> InBucket(sol[k], Morning))
            && (forall k :: cut <= k < |sol| ==> InBucket(sol[k], Afternoon))
  {
    JoinWindows(rows, rule, morningGens, afternoonGens);
  }
}

=== FILE: geometry.dfy ===
/** Plate dimensions, margins and the buffered separation test between two
    placed parts. */
module Geometry {
  import opened Layout

  /** Side of the square plate. */
  const PLATE_SIZE: int := 500
  /** Clearance kept around every part. */
  const BUFFER: int := 5
  /** Spacing between neighbouring parts along the packing direction. */
  const SEPARATION: int := 10

  /** The footprint of an item: the two declared dimensions, smaller first. */
  datatype Dim = Dim(w: int, h: int)

  /** Name-to-footprint lookup, standing for the table built once from the orders. */
  type DimsOf = string -> Dim

  /** Part p, inflated by BUFFER, lies entirely left of, right of, above or
      below part q. */
  predicate Separated(p: Part, dp: Dim, q: Part, dq: Dim) {
    || p.x + dp.w + BUFFER <= q.x
    || p.x >= q.x + dq.w + BUFFER
    || p.y + dp.h + BUFFER <= q.y
    || p.y >= q.y + dq.h + BUFFER
  }

  /** Separation with both footprints taken from the lookup. */
  predicate Clear(p: Part, q: Part, dims: DimsOf) {
    Separated(p, dims(p.name), q, dims(q.name))
  }

  /** The part can join the plate: it is clear of every part already there.
      Containment in the plate is not checked. */
  predicate FitsOn(plate: Plate, part: Part, dims: DimsOf) {
    forall i :: 0 <= i < |plate| ==> Clear(part, plate[i], dims)
  }

  /** No two distinct positions of the plate hold overlapping parts. */
  predicate PairwiseSeparated(plate: Plate, dims: DimsOf) {
    forall i, j :: 0 <= i < |plate| && 0 <= j < |plate| && i != j ==> Clear(plate[i], plate[j], dims)
  }

  /** Every plate keeps to one time window and has no overlapping parts. */
  predicate Feasible(sol: Solution, dims: DimsOf) {
    forall k :: 0 <= k < |sol| ==> Homogeneous(sol[k]) && PairwiseSeparated(sol[k], dims)
  }

  /** The source's scan of the plate, returning as soon as one existing part
      overlaps the candidate. */
  method CanFitInPlate(plate: Plate, part: Part, dims: DimsOf) returns (fits: bool)
    ensures fits <==> forall i :: 0 <= i < |plate| ==> Separated(part, dims(part.name), plate[i], dims(plate[i].name))
  {
    var d := dims(part.name);
    var i := 0;
    while i < |plate|
      invariant 0 <= i <= |plate|
      invariant forall k :: 0 <= k < i ==> Separated(part, d, plate[k], dims(plate[k].name))
    {
      var existing := plate[i];
      var e := dims(existing.name);
      if !(part.x + d.w + BUFFER <= existing.x
           || part.x >= existing.x + e.w + BUFFER
           || part.y + d.h + BUFFER <= existing.y
           || part.y >= existing.y + e.h + BUFFER)
      {
        return false;
      }
      i := i + 1;
    }
    return true;
  }

  /** The separation test does not depend on which part is the candidate. */
  lemma SeparatedSymmetric(p: Part, dp: Dim, q: Part, dq: Dim)
    ensures Separated(p, dp, q, dq) <==> Separated(q, dq, p, dp)
  {
  }

  /** Anything fits on an empty plate; fitting on a plate extended by q means
      fitting on the plate and being clear of q. */
  lemma FitsOnEmptyAndSnoc(plate: Plate, q: Part, part: Part, dims: DimsOf)
    ensures FitsOn([], part, dims)
    ensures FitsOn(plate + [q], part, dims) <==> FitsOn(plate, part, dims) && Clear(part, q, dims)
  {
    var ext := plate + [q];
    assert ext[|plate|] == q;
    assert forall i :: 0 <= i < |plate| ==> ext[i] == plate[i];
  }

  /** Appending a part that fits keeps the plate free of overlaps. */
  lemma PairwiseSnoc(plate: Plate, part: Part, dims: DimsOf)
    requires PairwiseSeparated(plate, dims)
    requires FitsOn(plate, part, dims)
    ensures PairwiseSeparated(plate + [part], dims)
  {
    var ext := plate + [part];
    forall i, j | 0 <= i < |ext| && 0 <= j < |ext| && i != j
      ensures Clear(ext[i], ext[j], dims)
    {
      if i == |plate| {
        assert Clear(part, plate[j], dims);
      } else if j == |plate| {
        assert Clear(part, plate[i], dims);
        SeparatedSymmetric(part, dims(part.name), plate[i], dims(plate[i].name));
      } else {
        assert Clear(plate[i], plate[j], dims);
      }
    }
  }

  /** Exchanging two positions keeps the plate free of overlaps. */
  lemma PairwiseSwap(plate: Plate, a: nat, b: nat, dims: DimsOf)
    requires a < |plate| && b < |plate|
    requires PairwiseSeparated(plate, dims)
    ensures PairwiseSeparated(Swap(plate, a, b), dims)
  {
    var r := Swap(plate, a, b);
    forall i, j | 0 <= i < |r| && 0 <= j < |r| && i != j
      ensures Clear(r[i], r[j], dims)
    {
      var i' := if i == a then b else if i == b then a else i;
      var j' := if j == a then b else if j == b then a else j;
      assert r[i] == plate[i'] && r[j] == plate[j'];
      assert Clear(plate[i'], plate[j'], dims);
    }
  }

  /** Removing one position keeps the plate free of overlaps. */
  lemma PairwiseRemoveAt(plate: Plate, k: nat, dims: DimsOf)
    requires k < |plate|
    requires PairwiseSeparated(plate, dims)
    ensures PairwiseSeparated(RemoveAt(plate, k), dims)
  {
    var r := RemoveAt(plate, k);
    forall i, j | 0 <= i < |r| && 0 <= j < |r| && i != j
      ensures Clear(r[i], r[j], dims)
    {
      var i' := if i < k then i else i + 1;
      var j' := if j < k then j else j + 1;
      assert r[i] == plate[i'] && r[j] == plate[j'];
      assert Clear(plate[i'], plate[j'], dims);
    }
  }
}

=== FILE: layout.dfy ===
/** Placed parts, plates and solutions, and the list operations the two
    optimisers perform on them. */
module Layout {
  import opened TimeRange

  /** One physical unit of an ordered item at position (x, y) of its plate. */
  datatype Part = Part(name: string, time: Stamp, x: int, y: int)

  /** A plate is the ordered list of parts placed on it. */
  type Plate = seq<Part>

  /** A solution is the ordered list of plates in use. */
  type Solution = seq<Plate>

  /** The conditions under which the source raises instead of returning. */
  datatype Failure =
    | IndexError    // a part was read from an empty plate
    | InvalidInput  // a ratio over zero plates was asked for

  datatype Result<T> = Ok(value: T) | Err(error: Failure)

  /** All parts of a solution, plate after plate. */
  function Flatten(sol: Solution): seq<Part> {
    if |sol| == 0 then [] else sol[0] + Flatten(sol[1..])
  }

  /** The number of parts of a solution, summed plate by plate. */
  function PartCount(sol: Solution): nat {
    if |sol| == 0 then 0 else |sol[0]| + PartCount(sol[1..])
  }

  predicate NoEmptyPlates(sol: Solution) {
    forall k :: 0 <= k < |sol| ==> |sol[k]| > 0
  }

  /** Every part of the plate is in the time window of the plate's first part. */
  predicate Homogeneous(plate: Plate) {
    forall i :: 0 <= i < |plate| ==> BucketOf(plate[i].time) == BucketOf(plate[0].time)
  }

  lemma {:induction false} PartCountIsFlattenLength(sol: Solution)
    ensures PartCount(sol) == |Flatten(sol)|
  {
    if |sol| > 0 {
      PartCountIsFlattenLength(sol[1..]);
    }
  }

  lemma {:induction false} FlattenAppend(a: Solution, b: Solution)
    ensures Flatten(a + b) == Flatten(a) + Flatten(b)
  {
    if |a| == 0 {
      assert a + b == b;
    } else {
      assert (a + b)[1..] == a[1..] + b;
      FlattenAppend(a[1..], b);
    }
  }

  lemma FlattenSnoc(a: Solution, plate: Plate)
    ensures Flatten(a + [plate]) == Flatten(a) + plate
  {
    FlattenAppend(a, [plate]);
    assert [plate][1..] == [];
  }

  /** The parts of plate k sit between those of the plates before and after it. */
  lemma FlattenAround(sol: Solution, k: nat)
    requires k < |sol|
    ensures Flatten(sol) == Flatten(sol[..k]) + sol[k] + Flatten(sol[k + 1..])
  {
    var rest := sol[k..];
    assert sol == sol[..k] + rest;
    FlattenAppend(sol[..k], rest);
    assert rest[0] == sol[k] && rest[1..] == sol[k + 1..];
    assert Flatten(rest) == sol[k] + Flatten(sol[k + 1..]);
  }

  /** Replacing plate k by `a` exchanges the parts of sol[k] for those of
      `a` and keeps the parts of every other plate. */
  lemma FlattenUpdate(sol: Solution, k: nat, a: Plate)
    requires k < |sol|
    ensures multiset(Flatten(sol)) == multiset(Flatten(sol[..k])) + multiset(sol[k]) + multiset(Flatten(sol[k + 1..]))
    ensures multiset(Flatten(sol[k := a])) == multiset(Flatten(sol[..k])) + multiset(a) + multiset(Flatten(sol[k + 1..]))
  {
    var s' := sol[k := a];
    FlattenAround(sol, k);
    FlattenAround(s', k);
    assert s'[..k] == sol[..k];
    assert s'[k + 1..] == sol[k + 1..];
  }

  /** Replacing plate k by a plate with the same parts keeps the parts of the solution. */
  lemma FlattenUpdateSame(sol: Solution, k: nat, a: Plate)
    requires k < |sol| && multiset(a) == multiset(sol[k])
    ensures multiset(Flatten(sol[k := a])) == multiset(Flatten(sol))
  {
    FlattenUpdate(sol, k, a);
  }

  /** Replacing the adjacent plates k and k + 1 by `a` and `b`. */
  lemma FlattenUpdatePair(sol: Solution, k: nat, a: Plate, b: Plate)
    requires k + 1 < |sol|
    ensures multiset(Flatten(sol)) == multiset(Flatten(sol[..k])) + multiset(sol[k]) + multiset(sol[k + 1]) + multiset(Flatten(sol[k + 2..]))
    ensures multiset(Flatten(sol[k := a][k + 1 := b])) == multiset(Flatten(sol[..k])) + multiset(a) + multiset(b) + multiset(Flatten(sol[k + 2..]))
  {
    var s1 := sol[k := a];
    var s2 := s1[k + 1 := b];
    FlattenUpdate(sol, k, a);
    FlattenAround(sol[k + 1..], 0);
    assert sol[k + 1..][1..] == sol[k + 2..];
    FlattenAround(s2, k);
    FlattenAround(s2[k + 1..], 0);
    assert s2[..k] == sol[..k];
    assert s2[k + 1..][1..] == sol[k + 2..];
  }

  /** The source's list comprehension that drops the plates left empty. */
  function DropEmpty(sol: Solution): (r: Solution)
    ensures Flatten(r) == Flatten(sol)
    ensures |r| <= |sol|
    ensures NoEmptyPlates(r)
    ensures forall q :: q in r ==> q in sol
    ensures NoEmptyPlates(sol) ==> r == sol
  {
    if |sol| == 0 then []
    else
      var tail := DropEmpty(sol[1..]);
      assert Flatten(sol) == sol[0] + Flatten(sol[1..]);
      if |sol[0]| == 0 then
        assert sol[0] == [];
        tail
      else
        var r := [sol[0]] + tail;
        assert r[0] == sol[0] && r[1..] == tail;
        assert Flatten(r) == Flatten(sol) by {
          assert Flatten(r) == sol[0] + Flatten(tail);
        }
        assert forall q :: q in r ==> q in sol by {
          assert forall q :: q in r ==> q == sol[0] || q in tail;
        }
        assert NoEmptyPlates(sol) ==> r == sol by {
          if NoEmptyPlates(sol) {
            assert NoEmptyPlates(sol[1..]);
            assert sol == [sol[0]] + sol[1..];
          }
        }
        r
  }

  /** On one plate the filter keeps it exactly when it holds parts. */
  lemma DropEmptySingle(p: Plate)
    ensures DropEmpty([p]) == if |p| == 0 then [] else [p]
  {
    assert [p][1..] == [];
  }

  /** The filter works plate by plate: it distributes over concatenation,
      so with `DropEmptySingle` it keeps exactly the non-empty plates, in
      order. */
  lemma {:induction false} DropEmptyAppend(a: Solution, c: Solution)
    ensures DropEmpty(a + c) == DropEmpty(a) + DropEmpty(c)
  {
    if |a| == 0 {
      assert a + c == c;
    } else {
      assert (a + c)[0] == a[0];
      assert (a + c)[1..] == a[1..] + c;
      DropEmptyAppend(a[1..], c);
    }
  }

  /** The filter drops exactly as many plates as are empty. */
  lemma {:induction false} DropEmptyCount(sol: Solution)
    ensures |DropEmpty(sol)| + multiset(sol)[[]] == |sol|
  {
    if |sol| > 0 {
      DropEmptyCount(sol[1..]);
      assert sol == [sol[0]] + sol[1..];
      assert multiset(sol) == multiset{sol[0]} + multiset(sol[1..]);
      assert |sol[0]| == 0 ==> sol[0] == [];
    }
  }

  /** Exchanges the elements at positions i and j. */
  function Swap<T>(s: seq<T>, i: nat, j: nat): (r: seq<T>)
    requires i < |s| && j < |s|
    ensures |r| == |s|
    ensures r[i] == s[j] && r[j] == s[i]
    ensures forall k :: 0 <= k < |s| && k != i && k != j ==> r[k] == s[k]
    ensures multiset(r) == multiset(s)
  {
    var r := s[i := s[j]][j := s[i]];
    assert multiset(s[i := s[j]]) == multiset(s) - multiset{s[i]} + multiset{s[j]};
    r
  }

  /** Removes the element at position k, keeping the others in order. */
  function RemoveAt<T>(s: seq<T>, k: nat): (r: seq<T>)
    requires k < |s|
    ensures |r| == |s| - 1
    ensures forall i :: 0 <= i < k ==> r[i] == s[i]
    ensures forall i :: k <= i < |r| ==> r[i] == s[i + 1]
    ensures multiset(r) + multiset{s[k]} == multiset(s)
  {
    assert s == s[..k] + [s[k]] + s[k + 1..];
    s[..k] + s[k + 1..]
  }

  /** The position of the first occurrence of x. */
  function IndexOf<T(==)>(s: seq<T>, x: T): (k: nat)
    requires x in s
    ensures k < |s| && s[k] == x
    ensures forall j :: 0 <= j < k ==> s[j] != x
  {
    if s[0] == x then 0 else 1 + IndexOf(s[1..], x)
  }

  /** Python's `list.remove`: drops the first element equal to x. */
  function RemoveFirst<T(==)>(s: seq<T>, x: T): (r: seq<T>)
    requires x in s
    ensures |r| == |s| - 1
    ensures multiset(r) + multiset{x} == multiset(s)
    ensures forall y :: y in r ==> y in s
    ensures var k := IndexOf(s, x);
            && (forall i :: 0 <= i < k ==> r[i] == s[i] && s[i] != x)
            && (forall i :: k <= i < |r| ==> r[i] == s[i + 1])
  {
    RemoveAt(s, IndexOf(s, x))
  }

  /** Keeping only parts that were on a homogeneous plate keeps it homogeneous. */
  lemma HomogeneousSubset(plate: Plate, sub: Plate)
    requires Homogeneous(plate)
    requires forall p :: p in sub ==> p in plate
    ensures Homogeneous(sub)
  {
    if |sub| > 0 {
      assert sub[0] in plate;
      forall i | 0 <= i < |sub|
        ensures BucketOf(sub[i].time) == BucketOf(sub[0].time)
      {
        assert sub[i] in plate;
      }
    }
  }

  // ---------------------------------------------------------------------
  // Random draws

  /** A raw number reduced to a position among n, as `randint` and `choice` draw it. */
  function Reduce(raw: nat, n: nat): (k: nat)
    ensures n > 0 ==> k < n
    ensures raw < n ==> k == raw
  {
    if n == 0 then 0 else raw % n
  }

  /** The second of two distinct positions: j among the n - 1 positions
      other than i. */
  function SkipOver(j: nat, i: nat): (k: nat)
    ensures k != i
    ensures j < i ==> k == j
    ensures j >= i ==> k == j + 1
  {
    if j < i then j else j + 1
  }
}

=== FILE: ranking.dfy ===
/** Ranking by an integer key: Python's stable `list.sort(key=...)` and
    `min(..., key=...)`, generic in the ranked values. */
module Ranking {

  predicate SortedBy<T>(s: seq<T>, key: T -> int) {
    forall i, j :: 0 <= i < j < |s| ==> key(s[i]) <= key(s[j])
  }

  /** Puts x before the first element whose key is at least x's, so that x
      stays ahead of the equal elements that followed it. */
  function InsertBy<T>(x: T, s: seq<T>, key: T -> int): (r: seq<T>)
    requires SortedBy(s, key)
    ensures SortedBy(r, key)
    ensures multiset(r) == multiset(s) + multiset{x}
    ensures |r| == |s| + 1
  {
    if |s| == 0 then [x]
    else if key(x) <= key(s[0]) then
      SortedCons(x, s, key);
      [x] + s
    else
      var tail := s[1..];
      SortedTail(s, key);
      var rest := InsertBy(x, tail, key);
      InsertFront(s[0], x, tail, rest, key);
      assert multiset([s[0]] + rest) == multiset(s) + multiset{x} by {
        assert s == [s[0]] + tail;
      }
      [s[0]] + rest
  }

  /** An element whose key is at most the head's may go in front of a sorted sequence. */
  lemma SortedCons<T>(x: T, s: seq<T>, key: T -> int)
    requires SortedBy(s, key) && |s| > 0 && key(x) <= key(s[0])
    ensures SortedBy([x] + s, key)
  {
    forall i, j | 0 <= i < j < |s| + 1
      ensures key(([x] + s)[i]) <= key(([x] + s)[j])
    {
      assert ([x] + s)[j] == s[j - 1];
      if i > 0 {
        assert ([x] + s)[i] == s[i - 1];
      } else {
        assert key(s[0]) <= key(s[j - 1]);
      }
    }
  }

  /** The tail of a sorted sequence is sorted, and its head's key bounds the tail's. */
  lemma SortedTail<T>(s: seq<T>, key: T -> int)
    requires SortedBy(s, key) && |s| > 0
    ensures SortedBy(s[1..], key)
    ensures forall i :: 0 <= i < |s| - 1 ==> key(s[0]) <= key(s[1..][i])
  {
    var tail := s[1..];
    forall i, j | 0 <= i < j < |tail|
      ensures key(tail[i]) <= key(tail[j])
    {
      assert tail[i] == s[i + 1] && tail[j] == s[j + 1];
    }
    forall i | 0 <= i < |tail|
      ensures key(s[0]) <= key(tail[i])
    {
      assert tail[i] == s[i + 1];
    }
  }

  /** A head whose key is at most x's and at most every key of a tail stays
      in front of that tail with x inserted. */
  lemma InsertFront<T>(head: T, x: T, tail: seq<T>, rest: seq<T>, key: T -> int)
    requires key(head) <= key(x)
    requires forall i :: 0 <= i < |tail| ==> key(head) <= key(tail[i])
    requires SortedBy(rest, key) && multiset(rest) == multiset(tail) + multiset{x}
    ensures SortedBy([head] + rest, key)
  {
    var r := [head] + rest;
    forall j | 0 <= j < |rest|
      ensures key(head) <= key(rest[j])
    {
      assert rest[j] in multiset(rest);
      if rest[j] != x {
        assert rest[j] in multiset(tail);
        var t :| 0 <= t < |tail| && tail[t] == rest[j];
      }
    }
    forall i, j | 0 <= i < j < |r|
      ensures key(r[i]) <= key(r[j])
    {
      if i > 0 {
        assert r[i] == rest[i - 1] && r[j] == rest[j - 1];
      } else {
        assert r[j] == rest[j - 1];
      }
    }
  }

  /** `s.sort(key=key)` as an insertion sort. */
  function SortBy<T>(s: seq<T>, key: T -> int): (r: seq<T>)
    ensures SortedBy(r, key)
    ensures multiset(r) == multiset(s)
    ensures |r| == |s|
  {
    if |s| == 0 then []
    else
      assert s == [s[0]] + s[1..];
      var r := InsertBy(s[0], SortBy(s[1..], key), key);
      assert |r| == |multiset(r)|;
      r
  }

  /** Elements with equal keys keep their order: a sequence whose keys are
      all equal is left as it is. */
  lemma {:induction false} SortKeepsEqualKeys<T>(s: seq<T>, key: T -> int, c: int)
    requires forall i :: 0 <= i < |s| ==> key(s[i]) == c
    ensures SortBy(s, key) == s
  {
    if |s| > 0 {
      SortKeepsEqualKeys(s[1..], key, c);
      assert s == [s[0]] + s[1..];
    }
  }

  /** Every element of the sorted sequence comes from the input. */
  lemma SortedMembers<T>(s: seq<T>, key: T -> int)
    ensures forall i :: 0 <= i < |s| ==> SortBy(s, key)[i] in s
  {
    var r := SortBy(s, key);
    forall i | 0 <= i < |s|
      ensures r[i] in s
    {
      assert r[i] in multiset(s);
    }
  }

  /** In a sorted sequence, every element of a prefix has a key at most that
      of every element of the rest. */
  lemma SortedPrefixFirst<T>(s: seq<T>, k: nat, key: T -> int)
    requires SortedBy(s, key) && k <= |s|
    ensures forall i, j :: 0 <= i < k && 0 <= j < |s| - k ==> key(s[..k][i]) <= key(s[k..][j])
  {
    forall i, j | 0 <= i < k && 0 <= j < |s| - k
      ensures key(s[..k][i]) <= key(s[k..][j])
    {
      assert s[..k][i] == s[i] && s[k..][j] == s[k + j];
    }
  }

  /** A prefix of a sorted sequence is sorted. */
  lemma SortedPrefix<T>(s: seq<T>, k: nat, key: T -> int)
    requires SortedBy(s, key) && k <= |s|
    ensures SortedBy(s[..k], key)
  {
    forall i, j | 0 <= i < j < k
      ensures key(s[..k][i]) <= key(s[..k][j])
    {
      assert s[..k][i] == s[i] && s[..k][j] == s[j];
    }
  }

  lemma SplitMultiset<T>(s: seq<T>, k: nat)
    requires k <= |s|
    ensures multiset(s[..k]) + multiset(s[k..]) == multiset(s)
  {
    assert s == s[..k] + s[k..];
  }

  /** `min(s, key=key)`: the position of the first element of least key. */
  function FirstMin<T>(s: seq<T>, key: T -> int): (k: nat)
    requires |s| > 0
    ensures k < |s|
    ensures forall j :: 0 <= j < |s| ==> key(s[k]) <= key(s[j])
    ensures forall j :: 0 <= j < k ==> key(s[j]) > key(s[k])
  {
    if |s| == 1 then 0
    else
      var k := FirstMin(s[1..], key);
      if key(s[0]) <= key(s[1 + k]) then 0 else 1 + k
  }

  /** The head of the sorted sequence has the least key of the input. */
  lemma SortedHeadIsMin<T>(s: seq<T>, key: T -> int)
    requires |s| > 0
    ensures key(SortBy(s, key)[0]) == key(s[FirstMin(s, key)])
  {
    var r := SortBy(s, key);
    var b := FirstMin(s, key);
    assert s[b] in multiset(r);
    assert r[0] in multiset(s);
  }
}

=== FILE: scoring.dfy ===
/** The two measures of a solution: the search objective both optimisers
    minimise, and the packed-area utilisation used only for reporting. */
module Scoring {
  import opened Layout
  import opened Geometry

  const PLATE_AREA: int := PLATE_SIZE * PLATE_SIZE

  /** The search objective (`calculate_cost` in one script, `fitness_function`
      in the other): the area of all plates in use minus the number of
      parts.  It is a proxy, not the wasted area. */
  function Cost(sol: Solution): (c: int)
    ensures c <= |sol| * PLATE_AREA
    ensures |sol| == 0 ==> c == 0
  {
    |sol| * PLATE_AREA - PartCount(sol)
  }

  /** Every part placed lowers the objective by one, whatever its size. */
  lemma CostCountsParts(sol: Solution)
    ensures Cost(sol) == |sol| * PLATE_AREA - |Flatten(sol)|
  {
    PartCountIsFlattenLength(sol);
  }

  /** Both solutions have the same number of plates with the same number of
      parts on each. */
  predicate SameShape(a: Solution, b: Solution) {
    |a| == |b| && forall k :: 0 <= k < |a| ==> |a[k]| == |b[k]|
  }

  lemma PartCountAppend(a: Solution, b: Solution)
    ensures PartCount(a + b) == PartCount(a) + PartCount(b)
  {
    PartCountIsFlattenLength(a + b);
    PartCountIsFlattenLength(a);
    PartCountIsFlattenLength(b);
    FlattenAppend(a, b);
  }

  /** The objective is zero on no plates and adds up over concatenation. */
  lemma CostAdditive(a: Solution, b: Solution)
    ensures Cost([]) == 0
    ensures Cost(a + b) == Cost(a) + Cost(b)
  {
    PartCountAppend(a, b);
  }

  /** With the same parts, fewer plates never cost more. */
  lemma CostOfFewerPlates(a: Solution, b: Solution)
    requires multiset(Flatten(a)) == multiset(Flatten(b))
    requires |a| <= |b|
    ensures Cost(a) <= Cost(b)
  {
    PartCountIsFlattenLength(a);
    PartCountIsFlattenLength(b);
    assert |Flatten(a)| == |multiset(Flatten(a))|;
    assert |Flatten(b)| == |multiset(Flatten(b))|;
    assert |a| * PLATE_AREA <= |b| * PLATE_AREA by {
      assert PLATE_AREA == 250000;
    }
  }

  /** The objective depends only on the plate count and the per-plate part counts. */
  lemma {:induction false} CostOfSameShape(a: Solution, b: Solution)
    requires SameShape(a, b)
    ensures PartCount(a) == PartCount(b)
    ensures Cost(a) == Cost(b)
  {
    if |a| > 0 {
      assert SameShape(a[1..], b[1..]) by {
        forall k | 0 <= k < |a| - 1
          ensures |a[1..][k]| == |b[1..][k]|
        {
          assert |a[k + 1]| == |b[k + 1]|;
        }
      }
      CostOfSameShape(a[1..], b[1..]);
    }
  }

  /** A utilisation as an exact fraction: packed area over plate area. */
  datatype Ratio = Ratio(used: int, total: int)

  /** Area of a list of parts, footprints taken from the lookup. */
  function PartsArea(ps: seq<Part>, dims: DimsOf): int {
    if |ps| == 0 then 0 else dims(ps[0].name).w * dims(ps[0].name).h + PartsArea(ps[1..], dims)
  }

  /** The reporter's accumulation, plate by plate and part by part. */
  function UsedArea(sol: Solution, dims: DimsOf): int {
    if |sol| == 0 then 0 else PartsArea(sol[0], dims) + UsedArea(sol[1..], dims)
  }

  ghost predicate NonNegativeDims(dims: DimsOf) {
    forall n :: dims(n).w >= 0 && dims(n).h >= 0
  }

  lemma {:induction false} PartsAreaAppend(a: seq<Part>, b: seq<Part>, dims: DimsOf)
    ensures PartsArea(a + b, dims) == PartsArea(a, dims) + PartsArea(b, dims)
  {
    if |a| == 0 {
      assert a + b == b;
    } else {
      assert (a + b)[1..] == a[1..] + b;
      PartsAreaAppend(a[1..], b, dims);
    }
  }

  /** The nested accumulation equals the area of the flattened part list. */
  lemma {:induction false} UsedAreaIsFlatArea(sol: Solution, dims: DimsOf)
    ensures UsedArea(sol, dims) == PartsArea(Flatten(sol), dims)
  {
    if |sol| > 0 {
      UsedAreaIsFlatArea(sol[1..], dims);
      PartsAreaAppend(sol[0], Flatten(sol[1..]), dims);
    }
  }

  lemma {:induction false} PartsAreaNonNegative(ps: seq<Part>, dims: DimsOf)
    ensures NonNegativeDims(dims) ==> PartsArea(ps, dims) >= 0
  {
    if |ps| > 0 && NonNegativeDims(dims) {
      var d := dims(ps[0].name);
      assert d.w >= 0 && d.h >= 0;
      PartsAreaNonNegative(ps[1..], dims);
    }
  }

  /** `calculate_utilization` without the final percentage: the used area and
      the total plate area.  Over zero plates the source divides by zero; here
      that is the InvalidInput error. */
  function Utilization(sol: Solution, dims: DimsOf): (r: Result<Ratio>)
    ensures r.Err? <==> |sol| == 0
    ensures r.Err? ==> r.error == InvalidInput
    ensures r.Ok? ==> r.value.total == |sol| * PLATE_AREA > 0
    ensures r.Ok? ==> r.value.used == PartsArea(Flatten(sol), dims)
    ensures r.Ok? && NonNegativeDims(dims) ==> r.value.used >= 0
  {
    if |sol| == 0 then
      Err(InvalidInput)
    else
      UsedAreaIsFlatArea(sol, dims);
      PartsAreaNonNegative(Flatten(sol), dims);
      Ok(Ratio(UsedArea(sol, dims), |sol| * PLATE_AREA))
  }
}

=== FILE: time_range.dfy ===
/** Order timestamps and the two half-day windows (morning / afternoon)
    that decide which parts may share a plate. */
module TimeRange {

  /** Seconds from midnight to noon, the boundary between the two windows. */
  const NOON: nat := 12 * 60 * 60

  /** An order timestamp: the calendar date is carried as an opaque tag, the
      wall-clock time as seconds since midnight.  Only the wall-clock time
      takes part in the bucket test. */
  datatype Stamp = Stamp(date: string, secondOfDay: nat)

  datatype Bucket = Morning | Afternoon

  /** The half-day window of a timestamp: before 12:00:00 or at/after it. */
  function BucketOf(t: Stamp): Bucket {
    if t.secondOfDay < NOON then Morning else Afternoon
  }

  /** The source's two-branch test: when the first time is before noon the
      second must be too, otherwise the second must be at or after noon. */
  function IsSameTimeRange(t1: Stamp, t2: Stamp): (same: bool)
    ensures same <==> BucketOf(t1) == BucketOf(t2)
    ensures same <==> (t1.secondOfDay < NOON <==> t2.secondOfDay < NOON)
  {
    if t1.secondOfDay < NOON then t2.secondOfDay < NOON
    else t2.secondOfDay >= NOON
  }

  /** Same-window is an equivalence relation on timestamps. */
  lemma SameTimeRangeIsEquivalence()
    ensures forall t :: IsSameTimeRange(t, t)
    ensures forall t1, t2 :: IsSameTimeRange(t1, t2) <==> IsSameTimeRange(t2, t1)
    ensures forall t1, t2, t3 ::
              IsSameTimeRange(t1, t2) && IsSameTimeRange(t2, t3) ==> IsSameTimeRange(t1, t3)
  {
  }

  /** The two windows are exhaustive and disjoint, and the boundary itself
      belongs to the afternoon. */
  lemma BucketBoundary(t: Stamp)
    ensures BucketOf(t) == Morning <==> t.secondOfDay < NOON
    ensures BucketOf(t) == Afternoon <==> t.secondOfDay >= NOON
    ensures t.secondOfDay == NOON ==> BucketOf(t) == Afternoon
  {
  }

  /** 08:00:00 and 14:00:00 on the same day are in different windows. */
  lemma MorningAndAfternoonDiffer()
    ensures !IsSameTimeRange(Stamp("2024-01-01", 8 * 3600), Stamp("2024-01-01", 14 * 3600))
  {
  }
}
